=== FILE: README.md ===
# Sidekick side panel and completion relay, in Dafny

Sidekick is a browser extension. Its side panel sends prompts to a local,
OpenAI-compatible language-model server. Its background service worker (the
relay) performs the HTTP request and streams the answer back as
`streamChunk`, `streamEnd` and `streamError` messages.

This project models the logic of both halves as pure functions over strings
and sequences, and proves properties about them.

**The relay** (`background.js`):
- **Request builder.** Strips trailing slashes from the server address and
  picks the endpoint. It then builds either the chat-completions `messages`
  list or the responses-API `input` string.
- **Stream decoder.** Splits each read on `\n` and keeps the `data: ` lines.
  It skips `[DONE]`, parses the payload, and takes the content from
  `choices[0].delta.content` or from a `response.output_text.delta` event.
- **History store.** A map from session key to at most twenty turns. It has
  two append paths and a clear.
- **Lifecycle.** Maps each way a fetch can end (non-2xx status, natural end,
  abort, other error) to the events broadcast and the history change. It
  also covers the single `currentController` slot and the stop request.

**The side panel** (`sidepanel.js`):
- Slash-command parsing against the alias table.
- The autocomplete filter and its cyclic keyboard navigation.
- Persona URL-pattern matching, first-match selection and the dismissal of
  the persona badge.
- Assembling the prompt as query, then style hint, then context.
- `sendMessage`'s outcomes.
- Page-text clean-up and truncation.
- The multi-tab comparison: the six-tab cap on the picker, and each tab's
  contribution as a page or a failure.

External behaviour is passed in as parameters:
- `JSON.parse` is a parameter `string -> Option<Json>`; `None` stands for a
  thrown `SyntaxError`.
- Network reads are already-decoded strings.
- The fetch's outcome is a value: a rejection, or a status with the reads
  and how reading ended.
- A tab's host name is an input, as is the text of a page body.

Modules, one per file:

| module | file | models |
|---|---|---|
| `JsText` | js_text.dfy | `trim`, ASCII `toLowerCase`, `startsWith`/`endsWith`, `split('\n')`, `join`, integer formatting |
| `JsonValue` | json_value.dfy | parsed JSON values, JavaScript truthiness and string coercion |
| `History` | history.dfy | the history store and its two append paths |
| `RequestBuilder` | request_builder.dfy | URL and body of the completion request |
| `StreamDecoder` | stream_decoder.dfy | line decoding and the relay's read loop |
| `Relay` | relay.dfy | the message listener, controller slot, events and history updates |
| `SlashCommands` | slash_commands.dfy | alias table, `parseSlashCommand`, autocomplete filter and navigation |
| `Personas` | personas.dfy | `matchUrlPattern`, first matching persona, `checkPersona` |
| `PageText` | page_text.dfy | whitespace collapsing, trimming and truncation of page text |
| `Prompt` | prompt.dfy | query, style hint, context block, `sendMessage` |
| `Compare` | compare.dfy | tab picker selection and `executeCompare` |

## Behaviour worth knowing

Each point below is what the code does, with the lemma that shows it.

- **A line cut by a read boundary is lost.** Every read is split on line
  feeds on its own (background.js:121-122), and nothing is carried over to
  the next read. A `data:` line split across two reads therefore yields
  neither half: the head does not parse and the tail is not a `data:` line.
  See `StreamDecoder.SplitFrameIsLost`.
- **The last line of a read is decoded.** The last piece of `split('\n')` goes
  through the same checks as every other piece (background.js:122-125), even
  when the read does not end with a line feed. See
  `StreamDecoder.UnterminatedLineDecoded`.
- **Stop can end a stream twice.** A stop request sends `streamEnd`
  (background.js:18). The aborted fetch then sends another from its catch
  block (background.js:154). See `Relay.StopThenAbortEndsTwice`.
- **Manual history additions evict one turn.** `addToHistory` removes a
  single turn once there are more than twenty (background.js:30), whereas a
  completed exchange removes a user/assistant pair (background.js:113). See
  `History.PushTurn` and `History.PushAllKeepsRecent`.
- **An older request can orphan a newer one.** The `finally` block clears the
  controller whichever request it belongs to (background.js:159). An older
  request that finishes late therefore leaves a newer one unstoppable. See
  `Relay.OlderRequestOrphansNewer`.
- **Content that cannot become a string is skipped.** `fullResponse += content`
  (background.js:142) throws a TypeError for an object with its own
  `toString` property, or an array holding one. The catch block
  (background.js:145-147) then skips the line: no chunk is sent and the
  response text does not grow. See `StreamDecoder.UncoercibleIsSkipped` and
  `StreamDecoder.ToStringContentIsSkipped`.

## Model

| member | source | states |
|---|---|---|
| JsText.Trim | sidepanel.js:601 | `trim` yields the empty string exactly for blank input, and never leaves whitespace at either end |
| JsText.TrimAfterBlanks | sidepanel.js:601 | any amount of leading whitespace does not change the trim |
| JsText.TrimBeforeBlanks | sidepanel.js:601 | any amount of trailing whitespace does not change the trim |
| JsText.TrimAround | sidepanel.js:601 | a text with whitespace only before and after it trims to exactly that text, so trim removes the whitespace ends and nothing else |
| JsText.TrimIdempotent | sidepanel.js:477-480 | trimming an already trimmed string changes nothing |
| JsText.ToLower | sidepanel.js:92-93 | lowering keeps the length and maps each character by the ASCII case rule |
| JsText.ToLowerIdempotent | sidepanel.js:92-93 | lowering twice is lowering once |
| JsText.TrimLower | sidepanel.js:477-479 | trimming and lowering commute |
| JsText.LowerIsLower | sidepanel.js:479 | no capital letter survives lowering |
| JsText.SplitLinesHaveNoNewline | background.js:122 | no piece of `split('\n')` holds a line feed |
| JsText.JoinSplit | background.js:122 | joining the pieces of `split('\n')` with line feeds gives back the read |
| JsText.SplitJoin | background.js:122 | splitting lines joined by line feeds gives back exactly those lines |
| JsText.NatDecimal | background.js:95 | the status is written as decimal digits with no leading zero |
| JsText.DecimalRoundTrip | background.js:95 | the decimal digits of a status read back as that status |
| JsonValue.Index0 | background.js:133 | `?.[0]` on a non-empty array yields its first element, and only arrays, objects and strings yield anything |
| JsonValue.ConcatAppend | background.js:142 | the coerced response text of two runs of chunks is the concatenation of their texts |
| JsonValue.ConcatOfStrings | background.js:142 | when every chunk is a string, the response text is the plain concatenation of the chunks |
| JsonValue.TruthyButEmpty | background.js:141-142 | `[]` and `[null]` are truthy chunks that add nothing to the response text |
| RequestBuilder.StripTrailingSlashes | background.js:40 | the result is the input minus exactly its trailing slashes, and ends in no slash |
| RequestBuilder.StripIdempotent | background.js:40 | stripping an already stripped address changes nothing |
| RequestBuilder.SlashesIgnored | background.js:40 | any number of trailing slashes on the address give the same base |
| RequestBuilder.ResponsesInput | background.js:51-54 | `input` is the trimmed system prompt, a blank line, then the prompt when the system prompt is not blank, and the prompt alone otherwise |
| RequestBuilder.ChatMessages | background.js:63-75 | `messages` is an optional trimmed system turn, then the whole history only when asked for, then one user turn with the prompt; its length follows |
| RequestBuilder.Build | background.js:37-81 | the URL starts with the stripped base; the shape is responses exactly when `apiEndpoint` is `responses`; the body carries the model and the input or messages above |
| RequestBuilder.EndpointChoice | background.js:48-62 | the URL is base plus `/v1/responses` exactly when `apiEndpoint` is `responses`, and base plus `/v1/chat/completions` exactly otherwise |
| RequestBuilder.ChatScenario | background.js:63-80 | system prompt `Be terse.` and prompt `Hi` give exactly a system turn and a user turn |
| RequestBuilder.ResponsesScenario | background.js:48-59 | an empty system prompt sends the prompt alone as `input` |
| StreamDecoder.EventContent | background.js:130-139 | a truthy chat delta wins, else the truthy `delta` of a text-delta event, else nothing; no falsy content is produced |
| StreamDecoder.LineContent | background.js:125-147 | a line emits exactly when it starts with `data: `, its payload is not `[DONE]` and parses, the event has content, and that content can be coerced to a string; it emits that content |
| JsonValue.OwnToStringThrows | background.js:142 | an object with its own `toString` property, and any array holding one, cannot be coerced to a string |
| StreamDecoder.UncoercibleIsSkipped | background.js:141-147 | a line whose content throws on `+=` is caught and skipped, leaving the output of the lines around it unchanged |
| StreamDecoder.ChatEventContent | background.js:133-134 | a chat-completions event yields its delta content exactly when that content is truthy |
| StreamDecoder.ToStringContentIsSkipped | background.js:133-147 | the event `{"choices":[{"delta":{"content":{"toString":1}}}]}` has truthy content, yet its line emits nothing |
| StreamDecoder.DecodeLinesAppend | background.js:124-149 | lines are decoded independently: the output for two runs of lines is the concatenation of their outputs |
| StreamDecoder.DecodeReadsAppend | background.js:104-150 | reads are decoded independently and in arrival order |
| StreamDecoder.SilentLineSkipped | background.js:127-147 | a line that emits nothing leaves the output of the lines around it unchanged |
| StreamDecoder.DoneIsSilent | background.js:127 | `data: [DONE]` emits nothing |
| StreamDecoder.MalformedIsSkipped | background.js:145-147 | an unparseable payload emits nothing, and the lines after it still decode |
| StreamDecoder.SplitFrameIsLost | background.js:121-122 | a `data:` line cut by a read boundary emits nothing, although the same text in one read would emit its content |
| StreamDecoder.UnterminatedLineDecoded | background.js:122-125 | a read's final line is decoded even without a terminating line feed |
| StreamDecoder.TwoReads | background.js:104-124 | two reads emit the first read's contents followed by the second's |
| StreamDecoder.RelayLineStep | background.js:141-143 | one line of the loop appends its content to the chunks and its string form to the response text |
| StreamDecoder.RelayLines | background.js:124-149 | the line loop emits exactly the decoded contents in line order, and the text is their coerced concatenation |
| StreamDecoder.RelayReads | background.js:100-150 | the read loop emits exactly the decoded contents of all reads in order, and `fullResponse` is their coerced concatenation |
| History.PushTurn | background.js:27-31 | the manual path keeps the last twenty turns of history plus the new turn, and ends with the new turn |
| History.PushAllKeepsRecent | background.js:26-33 | any number of manual appends leaves exactly the twenty most recent turns in order |
| History.PushExchange | background.js:109-115 | the completion path grows the history by two, or keeps its length by dropping the two oldest turns once past twenty |
| History.PushExchangeWindow | background.js:109-115 | on a history of whole exchanges, one completion keeps the last ten exchanges, whole |
| History.PushExchangesKeepsRecentPairs | background.js:108-116 | any number of completions keeps exactly the ten most recent exchanges, whole and in order |
| History.ElevenExchanges | background.js:112-114 | eleven exchanges from empty leave twenty turns: the last ten exchanges, oldest first |
| History.AddTurn | background.js:26-33 | `addToHistory` changes only the default key, by the manual push, and keeps every key within twenty turns |
| History.RecordExchange | background.js:108-116 | the save at natural end changes only the default key, by the completion push, and keeps every key within twenty turns |
| History.ClearAll | background.js:22-24 | after `clearHistory` every key reads as empty |
| Relay.CaughtEvent | background.js:152-157 | an `AbortError` ends the stream quietly; any other error is reported with its message |
| Relay.ChunksThenTerminal | background.js:117-157 | chunk events followed by one terminal event form a well-formed trace |
| Relay.Begin | background.js:36-43 | a new controller replaces the current one, and the request is built from the default history as it is at that moment |
| Relay.ConcludeEvents | background.js:92-157 | the trace is well formed; a rejected fetch gives one caught event; a non-2xx status gives one status error; a 2xx response sends its chunks; the end is `streamEnd` exactly on natural end or abort |
| Relay.ConcludeHistory | background.js:106-116 | history changes only on natural end of a 2xx response with history asked for and non-empty text, and then by exactly that exchange |
| Relay.Conclude | background.js:83-160 | the controller is cleared, the trace is well formed, the history changes only when the exchange is saved, and the twenty-turn bound is kept |
| Relay.Stop | background.js:14-21 | with a current controller, stop clears it and sends one `streamEnd`; without one, nothing happens |
| Relay.Dispatch | background.js:9-34 | a completion starts exactly the request `Begin` builds and sends nothing yet; `stopGeneration` is `Stop`; clear empties every key; `addToHistory` pushes one turn; unknown messages change nothing; the bound is kept |
| Relay.StatusErrorShortCircuits | background.js:92-97 | a non-2xx status sends exactly one `Server responded with …` error and leaves the history as it was |
| Relay.StopThenAbortEndsTwice | background.js:15-18 | stopping an in-flight request yields two `streamEnd` events, one from the stop handler and one from the catch block |
| Relay.AbortMidStreamSavesNothing | background.js:152-154 | an abort during reading keeps the chunks already sent, ends with `streamEnd`, and saves nothing |
| Relay.OlderRequestOrphansNewer | background.js:158-160 | an older request's `finally` clears a newer request's controller, after which stop does nothing |
| Relay.EmptyResponseNotSaved | background.js:108 | a response whose text is empty is not saved |
| Relay.OverlappingRequestsBothSaved | background.js:107-115 | two overlapping requests: the second is built without the first's exchange, yet when both answers have text both exchanges are saved in completion order |
| SlashCommands.ParseSlashCommand | sidepanel.js:476-485 | null exactly when the trimmed, lowered input names no command, naming meaning equal to it or starting with it followed by a space |
| SlashCommands.AliasesHaveNoSpace | sidepanel.js:459-473 | no command holds a space |
| SlashCommands.AliasesDistinct | sidepanel.js:459-473 | the table's commands are distinct |
| SlashCommands.NamesUnique | sidepanel.js:479 | an input names at most one command without spaces |
| SlashCommands.FirstNamedIsOnly | sidepanel.js:478-479 | the first alias an input names is the only one, so table order does not matter |
| SlashCommands.ParseFinds | sidepanel.js:476-485 | an input naming an alias yields that alias's action and the trimmed rest of the input in its own case |
| SlashCommands.CommandThenText | sidepanel.js:477-481 | a command, a space and text yield the command's action and the trimmed text |
| SlashCommands.BareCommand | sidepanel.js:479-481 | a bare command yields its action and empty text |
| SlashCommands.NoSlashNoCommand | sidepanel.js:476-484 | input whose trimmed form does not start with `/` is never a command |
| SlashCommands.CaseIgnored | sidepanel.js:479 | an input and its lower-case form select the same action, or both none |
| SlashCommands.WordMustBeExact | sidepanel.js:479 | input without a space is a command exactly when it equals one once lowered |
| SlashCommands.Kept | sidepanel.js:490 | a definition is kept exactly when its lowered command starts with the lowered filter |
| SlashCommands.FilterContents | sidepanel.js:489-491 | every kept definition comes from the list and matches, and every matching definition is kept |
| SlashCommands.FilterAppend | sidepanel.js:489-491 | filtering distributes over concatenation, so definition order is kept |
| SlashCommands.FilterAllMatch | sidepanel.js:489-491 | when all definitions match, all are kept in order |
| SlashCommands.FilterNoneMatch | sidepanel.js:489-491 | when no definition matches, none is kept |
| SlashCommands.ShowAutocomplete | sidepanel.js:488-506 | hidden exactly for an empty filter or no match; otherwise the matches are shown with the first selected |
| SlashCommands.OnInput | sidepanel.js:545-554 | input not starting with `/`, or holding a space, hides the dropdown; otherwise the dropdown is exactly what `ShowAutocomplete` gives for the input; every listed command starts with the input |
| SlashCommands.SlashListsAll | sidepanel.js:449-456 | the filter `/` lists all six definitions in order with the first selected |
| SlashCommands.UnknownPrefixHidden | sidepanel.js:493-495 | a prefix no command has, `/x`, keeps the dropdown hidden |
| SlashCommands.JsRem | sidepanel.js:535-537 | JavaScript `%`: the remainder takes the dividend's sign, is smaller in size than the divisor, and differs from the dividend by a multiple of it, which fixes it uniquely |
| SlashCommands.NavigateIndex | sidepanel.js:528-538 | with items, the index stays in range: down moves to the next item, wrapping to the first; up moves to the previous, wrapping to the last |
| SlashCommands.NavigateRoundTrip | sidepanel.js:534-538 | down then up, and up then down, return to the starting item |
| SlashCommands.Navigate | sidepanel.js:528-542 | navigation keeps the dropdown's visibility and items, moves the selection to `NavigateIndex` in the given direction, and a valid selection stays valid |
| Personas.MatchUrlPattern | sidepanel.js:89-99 | the empty host never matches; `*.suffix` matches the suffix or a host ending in `.suffix`; another pattern must equal the host, all after trimming and lowering |
| Personas.HostCaseIgnored | sidepanel.js:93 | the host's case does not affect matching |
| Personas.WildcardOnLabelBoundary | sidepanel.js:94-97 | `*.suffix` matches a prefix plus suffix exactly when the prefix is empty or ends in a dot |
| Personas.WildcardCoversSubdomains | sidepanel.js:94-97 | `*.suffix` matches every subdomain of the suffix, in any case |
| Personas.PlainPatternIsExact | sidepanel.js:98 | a plain pattern does not match subdomains of its host |
| Personas.AnyPatternMatchesIff | sidepanel.js:174 | `some` holds exactly when one of the patterns matches |
| Personas.FindPersona | sidepanel.js:173-175 | none exactly when no persona matches; otherwise a stored persona that matches |
| Personas.EarlierPersonaWins | sidepanel.js:173-175 | the first matching persona in stored order is the one found |
| Personas.FirstPatternPersonaWins | sidepanel.js:173-175 | a match by any pattern of the first persona selects it |
| Personas.FirstPersonaWildcard | sidepanel.js:173-175 | a wildcard of the first persona selects it for every subdomain of its suffix |
| Personas.EmptyHostNoPersona | sidepanel.js:90-91 | a URL without a host selects no persona |
| Personas.GithubSubdomainsGetReviewer | sidepanel.js:101-107 | every subdomain of github.com gets the Code Reviewer persona |
| Personas.CheckPersona | sidepanel.js:148-185 | no tab URL gives no persona; a dismissal is forgotten on another domain and hides the persona on its own; otherwise the first match is active |
| Personas.DismissalLastsOnDomain | sidepanel.js:158-168 | after a dismissal the badge stays hidden on that domain and the dismissal is forgotten elsewhere |
| PageText.Collapse | sidepanel.js:278 | every run of whitespace becomes one space: only spaces remain as whitespace, never two adjacent, and a leading run stays as one space |
| PageText.CollapseKeepsVisible | sidepanel.js:278 | collapsing keeps every non-whitespace character, in order |
| PageText.CollapseBlank | sidepanel.js:278 | the collapsed text is blank exactly when the input is |
| PageText.CollapseVisibleHead | sidepanel.js:278 | a non-whitespace first character is kept, and the rest collapses on its own |
| PageText.CollapseBlankRun | sidepanel.js:278 | a non-empty run of whitespace before a word, or at the end, becomes exactly one space |
| PageText.SeparatorKept | sidepanel.js:278 | two characters separated by any run of whitespace keep exactly one space between them |
| PageText.TrimKeepsVisible | sidepanel.js:278 | trimming keeps every non-whitespace character, in order |
| PageText.Truncate | sidepanel.js:280-282 | text within the limit is unchanged; longer text becomes its first `limit` characters followed by `... [truncated]` |
| PageText.TruncateBounds | sidepanel.js:280-282 | the result never exceeds the limit plus the marker, and begins with as much of the text as fits |
| PageText.TruncateIdempotent | sidepanel.js:280-282 | truncating twice to the same limit is truncating once |
| PageText.TruncateRecoverable | sidepanel.js:280-282 | what truncation removed is exactly the text past the limit |
| PageText.Extracted | sidepanel.js:276-283 | the extracted text is empty exactly for a blank body and within the limit plus the marker |
| PageText.ExtractedKeepsVisible | sidepanel.js:278-282 | within the limit, extraction keeps every non-whitespace character of the body |
| PageText.PageContent | sidepanel.js:263-287 | the current tab's text is empty exactly for a blank body, at most 10000 characters plus the marker, keeps every visible character when it fits, and otherwise ends with the marker |
| Prompt.ActionPrompt | sidepanel.js:624-630 | exactly the five non-chat actions have an instruction, each ending in a colon, and each instruction is the text the `actionPrompts` table gives it |
| Prompt.Query | sidepanel.js:632-640 | chat, or words with a context, gives the words; a context alone gives the instruction or the words; no context gives the instruction, a blank line and the words |
| Prompt.QueryEndsWithUserText | sidepanel.js:632-640 | the query always ends with the user's words |
| Prompt.QueryEmptyIff | sidepanel.js:632-640 | the query is empty exactly when there are no words and no instruction stands in for them |
| Prompt.PersonaNote | sidepanel.js:642-644 | the style hint is present exactly with an active persona; it names the persona and its prompt, closes with "Apply this style only if relevant to the user's request above.]", and holds nothing else |
| Prompt.ContextLabel | sidepanel.js:646-651 | selections, YouTube transcripts and pages are labelled `selected text`, `YouTube video transcript` and `page content`; only the absence of context gives an empty label |
| Prompt.ContextBlock | sidepanel.js:652 | the context block is present exactly when there is context text; it is the `Context (label):` header followed by that text verbatim and nothing else |
| Prompt.BuildPrompt | sidepanel.js:654 | the prompt starts with the query and ends with the context text; without persona or context it is the query |
| Prompt.PromptParts | sidepanel.js:654 | the style hint and the context block sit right after the query, in that order |
| Prompt.WordsThenContext | sidepanel.js:634-654 | with both words and context, the prompt opens with the words and closes with the context, whatever the action |
| Prompt.Command | sidepanel.js:614-620 | a recognised slash command replaces the dropdown's action and the text; otherwise both are kept |
| Prompt.DisplayText | sidepanel.js:668-675 | the bubble shows the words if any; otherwise `[action: origin]`, the origin being `video`, `page` or `selection` by where the context came from, when there is context; otherwise `[Image]` with an image; it is empty only with no words, no context and no image |
| Prompt.Outgoing | sidepanel.js:708-717 | the message carries the stored settings, the prompt `BuildPrompt` assembles from the action, words, context and persona, and the bubble text `DisplayText` gives; it asks for history exactly in chat mode |
| Prompt.SendMessage | sidepanel.js:594-717 | a press while generating stops; nothing to send is ignored; missing settings are reported; otherwise the outgoing message for the slash-command-adjusted input |
| Prompt.SlashCommandOverrides | sidepanel.js:613-620 | a command followed by words decides the action whatever the dropdown says, and only the words reach the prompt |
| Prompt.BareChatSendsEmptyPrompt | sidepanel.js:632-633 | a bare `/chat` with no context sends an empty prompt with history, and shows no text |
| Prompt.PlainTextUsesDropdown | sidepanel.js:614-620 | text not starting with `/` uses the dropdown's action, unchanged |
| Prompt.ChatSendsWordsVerbatim | sidepanel.js:632-633 | plain words in chat mode without context or persona are sent exactly as trimmed, with history |
| Compare.With | sidepanel.js:825 | adding keeps the selection's order, appends a new id, and keeps ids distinct |
| Compare.Without | sidepanel.js:828 | removing drops exactly that id, keeps the other ids in their order, and keeps ids distinct |
| Compare.ToggleTab | sidepanel.js:819-830 | a tick at six selected tabs is refused and unticked; otherwise a tick is `With` (appended last) and an untick is `Without` (the rest in their order), which fixes the page numbering; the cap of six and distinctness are kept |
| Compare.SelectionStaysCapped | sidepanel.js:819-830 | any series of clicks keeps at most six distinct tabs selected |
| Compare.TickThenUntick | sidepanel.js:820-829 | unticking a tab just ticked restores the selection |
| Compare.TitleOr | sidepanel.js:895 | an empty title reads as `Untitled`, another title as itself |
| Compare.Contribute | sidepanel.js:880-901 | a tab fails exactly when it cannot be read or its body is blank |
| Compare.ContributionContents | sidepanel.js:894-900 | a page holds the title, URL and extracted text; a readable tab fails under its title; an unreadable one as `Tab <id> (unavailable)` |
| Compare.PagesAndFailuresPartition | sidepanel.js:880-902 | every tab is either a page or a failure |
| Compare.PagesAppend | sidepanel.js:880-902 | pages are collected tab by tab in selection order |
| Compare.FailuresAppend | sidepanel.js:880-902 | failures are collected tab by tab in selection order |
| Compare.DefaultInstructions | sidepanel.js:911-913 | several pages get the comparison instructions and one page the summary instructions |
| Compare.PageBlock | sidepanel.js:923 | a page's section opens with the header `--- Page n: title (url) ---` and a line break, ends with its content and a blank line, and holds nothing else |
| Compare.PageBlockAt | sidepanel.js:922-924 | page i's section, numbered i+1, appears right where the earlier sections end |
| Compare.FailureNote | sidepanel.js:926-928 | the note is present exactly when some tab failed; it opens with `Note: Could not extract content from: `, ends with the names joined by commas and a line break, and holds nothing else |
| Compare.ComparePrompt | sidepanel.js:915-928 | the prompt opens with the user's instructions, or the default for the page count, then the persona's hint and a blank line, and ends with the page sections and the failure note, with nothing else between |
| Compare.ExecuteCompare | sidepanel.js:852-951 | no page gives the failure message, before settings are checked, followed by `Failed: ` and the failed names joined by commas when any tab failed; missing settings are reported; otherwise the prompt is sent with the settings and never with history |
| Compare.BlankTabReportedByTitle | sidepanel.js:894-908 | a single blank tab is reported by its title and leaves nothing to compare |
| Compare.PlainComparePrompt | sidepanel.js:915-924 | without instructions, persona or failures, the prompt is the default, a blank line and the sections |
| Compare.OnePageBlock | sidepanel.js:922-924 | the sections of one page are that page's section, numbered 1 |
| Compare.OneReadableTab | sidepanel.js:880-898 | one readable tab with text yields one page and no failure |
| Compare.OneTabCompare | sidepanel.js:904-951 | one readable tab and no instructions sends the single-page instructions and the page's section numbered 1 |

## Left out

- options.js: a settings form with no logic of its own.
- Browser APIs (`chrome.storage`, `chrome.tabs`, `chrome.scripting`, runtime messaging), DOM rendering, `marked` and the HTML escaping of the tab picker. These are I/O and presentation. Their results are parameters: settings, tab reads, context text, context kind, host names.
- `fetch`, `AbortController` timing and how a stop interleaves with a pending `reader.read()`. These are asynchronous concurrency. A request is split into `Relay.Begin` and `Relay.Conclude`. An abort during reading is the outcome `Threw(AbortError)`.
- `TextDecoder` (UTF-8 decoding of reads) and `JSON.parse`. These are foreign libraries: reads are strings and parsing is a parameter.
- `getDomain`, which uses the URL parser: the host name is an input, and a URL that does not parse gives the empty host.
- `getContext`, `checkContext` and their polling timer, YouTube transcript scraping and caption parsing, and `getSelectedText`. These rely on timers, page scripts and XML parsing. The context text and its kind are inputs to `Prompt.SendMessage`.
- Image paste and preview. Only whether an image is attached is modelled. The relay never reads `imageData`, so `RequestBuilder.CompletionRequest` does not carry it.
- `selectAutocomplete` and the key handler's Tab/Enter/Escape branches. They only rewrite the input box or hide the dropdown.
- The tab picker's listing: filtering out `chrome://` tabs, the favicon, and the URL preview cut to 60 characters. The send button's label and the user bubble's `[n tabs]` label are left out too. These are presentation.
- Seeding the default personas into storage, which is a storage write. The seeded list is `Personas.DefaultPersonas`.
- The `console.log` calls.
- JsText.ToLower: maps only ASCII capitals. JavaScript's `toLowerCase` also lowers other scripts. Every command and pattern in the source is ASCII.
- JsonValue.ToJsString: numbers are integers. Fractions and exponents are not formatted as JavaScript would. Values it throws on are excluded by `JsonValue.Coercible`.
- PageText.Truncate: counts characters as code points. JavaScript's `length` and `substring` count UTF-16 code units, so text outside the Basic Multilingual Plane is cut at a different place.
- PageText.Extracted: takes the page body's `innerText` as given. The removal of script, style, navigation and other elements is not modelled.

=== FILE: compare.dfy ===
/** The multi-tab comparison: the tab picker's capped selection, what each
    selected tab contributes (a page or a failure), and the single prompt
    built from all of them, which is always sent without history. */
module Compare {
  import opened JsText
  import opened PageText
  import opened Personas
  import opened RequestBuilder
  import opened Prompt

  /** The picker refuses a tick beyond this many tabs. */
  const MaxTabs := 6

  const Untitled := "Untitled"

  const SinglePageInstructions := "Analyze the following page and provide a detailed summary with key insights."

  const ManyPagesInstructions :=
    "Analyze the following pages. Compare their content, highlight key similarities and differences, and provide notable insights."

  const NothingExtractedMessage := "Could not extract content from any tabs. "

  /** A JavaScript Set of tab ids, held in insertion order, which is the
      order `Array.from` lists it in. */
  predicate Distinct(ids: seq<int>) {
    forall i, j :: 0 <= i < j < |ids| ==> ids[i] != ids[j]
  }

  /** `Set.prototype.add`. */
  function With(ids: seq<int>, id: int): (r: seq<int>)
    ensures forall x :: x in r <==> x in ids || x == id
    ensures |ids| <= |r| <= |ids| + 1 && r[..|ids|] == ids
    ensures Distinct(ids) ==> Distinct(r)
  {
    if id in ids then ids else ids + [id]
  }

  /** `Set.prototype.delete`: the other ids keep their order. */
  function Without(ids: seq<int>, id: int): (r: seq<int>)
    ensures forall x :: x in r <==> x in ids && x != id
    ensures |r| <= |ids|
    ensures Distinct(ids) ==> Distinct(r)
    ensures forall i, j :: 0 <= i < j < |r| ==> InOrder(ids, r[i], r[j])
  {
    if |ids| == 0 then []
    else
      var rest := Without(ids[1..], id);
      assert Distinct(ids) ==> Distinct(ids[1..]) && ids[0] !in ids[1..];
      if ids[0] == id then
        InOrderTail(ids, rest);
        rest
      else
        InOrderCons(ids, rest);
        [ids[0]] + rest
  }

  /** `x` occurs in `ids` somewhere before some occurrence of `y`. */
  predicate InOrder(ids: seq<int>, x: int, y: int) {
    exists p, q :: 0 <= p < q < |ids| && ids[p] == x && ids[q] == y
  }

  /** Order within the tail is order within the whole. */
  lemma InOrderTail(ids: seq<int>, rest: seq<int>)
    requires |ids| > 0
    requires forall i, j :: 0 <= i < j < |rest| ==> InOrder(ids[1..], rest[i], rest[j])
    ensures forall i, j :: 0 <= i < j < |rest| ==> InOrder(ids, rest[i], rest[j])
  {
    forall i, j | 0 <= i < j < |rest|
      ensures InOrder(ids, rest[i], rest[j])
    {
      var p, q :| 0 <= p < q < |ids| - 1 && ids[1..][p] == rest[i] && ids[1..][q] == rest[j];
      assert ids[p + 1] == rest[i] && ids[q + 1] == rest[j];
    }
  }

  /** Keeping the first id in front of an ordered rest keeps the order. */
  lemma InOrderCons(ids: seq<int>, rest: seq<int>)
    requires |ids| > 0
    requires forall x :: x in rest ==> x in ids[1..]
    requires forall i, j :: 0 <= i < j < |rest| ==> InOrder(ids[1..], rest[i], rest[j])
    ensures forall i, j :: 0 <= i < j < |[ids[0]] + rest| ==> InOrder(ids, ([ids[0]] + rest)[i], ([ids[0]] + rest)[j])
  {
    var r := [ids[0]] + rest;
    InOrderTail(ids, rest);
    forall i, j | 0 <= i < j < |r|
      ensures InOrder(ids, r[i], r[j])
    {
      if i == 0 {
        assert r[j] == rest[j - 1] && rest[j - 1] in ids[1..];
        var q :| 0 <= q < |ids| - 1 && ids[1..][q] == rest[j - 1];
        assert ids[0] == r[0] && ids[q + 1] == r[j];
      } else {
        assert r[i] == rest[i - 1] && r[j] == rest[j - 1];
      }
    }
  }

  /** A checkbox change in the picker: the selection afterwards and whether
      the box stays ticked. */
  datatype Toggle = Toggle(ids: seq<int>, ticked: bool)

  /** Ticking a seventh tab is refused and the box is unticked again;
      otherwise a tick adds the tab and an untick removes it. */
  function ToggleTab(ids: seq<int>, id: int, ticked: bool): (r: Toggle)
    ensures ticked && |ids| >= MaxTabs ==> r == Toggle(ids, false)
    ensures ticked && |ids| < MaxTabs ==>
      r.ticked && (forall x :: x in r.ids <==> x in ids || x == id)
      && |ids| <= |r.ids| && r.ids[..|ids|] == ids
    ensures !ticked ==> !r.ticked && (forall x :: x in r.ids <==> x in ids && x != id)
    ensures ticked && |ids| < MaxTabs ==> r == Toggle(With(ids, id), true)
    ensures !ticked ==> r == Toggle(Without(ids, id), false)
    ensures |ids| <= MaxTabs ==> |r.ids| <= MaxTabs
    ensures Distinct(ids) ==> Distinct(r.ids)
  {
    if ticked then
      if |ids| >= MaxTabs then Toggle(ids, false) else Toggle(With(ids, id), true)
    else Toggle(Without(ids, id), false)
  }

  /** One checkbox change: which tab, and whether it was ticked or unticked. */
  datatype Change = Change(id: int, ticked: bool)

  /** The selection after a series of changes. */
  function ApplyChanges(ids: seq<int>, changes: seq<Change>): seq<int>
    decreases |changes|
  {
    if |changes| == 0 then ids
    else ApplyChanges(ToggleTab(ids, changes[0].id, changes[0].ticked).ids, changes[1..])
  }

  /** However the boxes are clicked after the picker opens (and clears the
      selection), at most six distinct tabs are selected. */
  lemma {:induction false} SelectionStaysCapped(ids: seq<int>, changes: seq<Change>)
    requires |ids| <= MaxTabs && Distinct(ids)
    ensures |ApplyChanges(ids, changes)| <= MaxTabs && Distinct(ApplyChanges(ids, changes))
    decreases |changes|
  {
    if |changes| > 0 {
      SelectionStaysCapped(ToggleTab(ids, changes[0].id, changes[0].ticked).ids, changes[1..]);
    }
  }

  /** Unticking after ticking a tab that was not selected restores the selection. */
  lemma TickThenUntick(ids: seq<int>, id: int)
    requires Distinct(ids) && id !in ids && |ids| < MaxTabs
    ensures ToggleTab(ToggleTab(ids, id, true).ids, id, false).ids == ids
  {
    WithoutAbsent(ids, id);
    WithoutLast(ids, id);
  }

  lemma {:induction false} WithoutAbsent(ids: seq<int>, id: int)
    requires id !in ids
    ensures Without(ids, id) == ids
  {
    if |ids| > 0 {
      WithoutAbsent(ids[1..], id);
    }
  }

  lemma {:induction false} WithoutLast(ids: seq<int>, id: int)
    ensures Without(ids + [id], id) == Without(ids, id)
  {
    if |ids| == 0 {
      assert ([] + [id])[1..] == [];
    } else {
      WithoutLast(ids[1..], id);
      assert (ids + [id])[1..] == ids[1..] + [id];
    }
  }

  /** How reading one selected tab ended: the browser refused (the tab was
      gone or could not be scripted), or the tab's title, URL and body text. */
  datatype TabRead =
    | Unavailable
    | Read(title: string, url: string, body: string)

  datatype TabResult = TabResult(id: int, read: TabRead)

  datatype Page = Page(title: string, url: string, content: string)

  /** `tab.title || 'Untitled'`. */
  function TitleOr(title: string): (r: string)
    ensures r != ""
    ensures title != "" ==> r == title
    ensures title == "" ==> r == "Untitled"
  {
    if title == "" then Untitled else title
  }

  /** What a tab contributes: a page with content, or the name it is listed
      under among the failures. */
  datatype Contribution = PageOf(page: Page) | FailedAs(name: string)

  function Contribute(t: TabResult): (r: Contribution)
    ensures r.FailedAs? <==> t.read.Unavailable? || IsBlank(t.read.body)
  {
    match t.read
    case Unavailable => FailedAs("Tab " + Decimal(t.id) + " (unavailable)")
    case Read(title, url, body) =>
      var content := Extracted(body, TabLimit);
      if content != "" then PageOf(Page(TitleOr(title), url, content)) else FailedAs(TitleOr(title))
  }

  /** A readable tab becomes a page holding its extracted text under its
      title, or a failure listed by its title; an unreadable one is listed by
      its id. */
  lemma ContributionContents(t: TabResult)
    ensures Contribute(t).PageOf? ==>
      && Contribute(t).page == Page(TitleOr(t.read.title), t.read.url, Extracted(t.read.body, TabLimit))
      && Contribute(t).page.content != ""
    ensures t.read.Read? && Contribute(t).FailedAs? ==> Contribute(t).name == TitleOr(t.read.title)
    ensures t.read.Unavailable? ==> Contribute(t) == FailedAs("Tab " + Decimal(t.id) + " (unavailable)")
  {
  }

  /** The page a contribution adds, if any. */
  function PageList(c: Contribution): (r: seq<Page>)
    ensures |r| <= 1
  {
    if c.PageOf? then [c.page] else []
  }

  /** The failure a contribution adds, if any. */
  function FailureList(c: Contribution): (r: seq<string>)
    ensures |r| == 1 - |PageList(c)|
  {
    if c.FailedAs? then [c.name] else []
  }

  /** What each selected tab contributes, in selection order. */
  function Contributions(results: seq<TabResult>): (r: seq<Contribution>)
    ensures |r| == |results|
    ensures forall i :: 0 <= i < |r| ==> r[i] == Contribute(results[i])
  {
    seq(|results|, i requires 0 <= i < |results| => Contribute(results[i]))
  }

  /** The pages, in selection order. */
  function Pages(cs: seq<Contribution>): (r: seq<Page>)
    ensures |r| <= |cs|
  {
    if |cs| == 0 then [] else PageList(cs[0]) + Pages(cs[1..])
  }

  /** The names of the tabs that gave nothing, in selection order. */
  function Failures(cs: seq<Contribution>): (r: seq<string>)
    ensures |r| <= |cs|
  {
    if |cs| == 0 then [] else FailureList(cs[0]) + Failures(cs[1..])
  }

  /** Every selected tab is either a page or a failure, never both, never neither. */
  lemma {:induction false} PagesAndFailuresPartition(cs: seq<Contribution>)
    ensures |Pages(cs)| + |Failures(cs)| == |cs|
  {
    if |cs| > 0 {
      PagesAndFailuresPartition(cs[1..]);
    }
  }

  /** Both lists are built tab by tab: reading more tabs only appends. */
  lemma {:induction false} PagesAppend(a: seq<Contribution>, b: seq<Contribution>)
    ensures Pages(a + b) == Pages(a) + Pages(b)
  {
    if |a| > 0 {
      PagesAppend(a[1..], b);
      assert (a + b)[1..] == a[1..] + b;
    } else {
      assert a + b == b;
    }
  }

  lemma {:induction false} FailuresAppend(a: seq<Contribution>, b: seq<Contribution>)
    ensures Failures(a + b) == Failures(a) + Failures(b)
  {
    if |a| > 0 {
      FailuresAppend(a[1..], b);
      assert (a + b)[1..] == a[1..] + b;
    } else {
      assert a + b == b;
    }
  }

  /** The instructions used when the user typed none. */
  function DefaultInstructions(pageCount: nat): (r: string)
    ensures pageCount > 1 <==> r == ManyPagesInstructions
    ensures pageCount <= 1 <==> r == SinglePageInstructions
  {
    if pageCount > 1 then ManyPagesInstructions else SinglePageInstructions
  }

  /** One page's section, numbered from 1. */
  function PageBlock(number: nat, p: Page): (r: string)
    ensures StartsWith(r, "--- Page " + Decimal(number) + ": " + p.title + " (" + p.url + ") ---\n")
    ensures EndsWith(r, p.content + "\n\n")
    ensures |r| == |"--- Page " + Decimal(number) + ": " + p.title + " (" + p.url + ") ---\n"| + |p.content| + 2
  {
    var head := "--- Page " + Decimal(number) + ": " + p.title + " (" + p.url + ") ---\n";
    AppendParts(head, p.content + "\n\n");
    EndsWithAppend(head, p.content + "\n\n", p.content + "\n\n");
    head + (p.content + "\n\n")
  }

  /** All page sections, in order. */
  function PageBlocks(pages: seq<Page>): string {
    if |pages| == 0 then ""
    else PageBlocks(pages[..|pages| - 1]) + PageBlock(|pages|, pages[|pages| - 1])
  }

  /** Where page `i`'s section begins. */
  function BlockOffset(pages: seq<Page>, i: nat): nat
    requires i <= |pages|
  {
    |PageBlocks(pages[..i])|
  }

  lemma {:induction false} PageBlocksPrefix(pages: seq<Page>, i: nat)
    requires i <= |pages|
    ensures StartsWith(PageBlocks(pages), PageBlocks(pages[..i]))
    decreases |pages|
  {
    if i < |pages| {
      var n := |pages|;
      assert pages[..n - 1][..i] == pages[..i];
      PageBlocksPrefix(pages[..n - 1], i);
      var a := PageBlocks(pages[..n - 1]);
      assert PageBlocks(pages) == a + PageBlock(n, pages[n - 1]);
      assert (a + PageBlock(n, pages[n - 1]))[..|a|] == a;
    } else {
      assert pages[..i] == pages;
    }
  }

  /** Every page appears, under its position number, right where the
      sections before it end. */
  lemma PageBlockAt(pages: seq<Page>, i: nat)
    requires i < |pages|
    ensures var off := BlockOffset(pages, i);
      var block := PageBlock(i + 1, pages[i]);
      off + |block| <= |PageBlocks(pages)| && PageBlocks(pages)[off..off + |block|] == block
  {
    PageBlocksPrefix(pages, i + 1);
    var before := PageBlocks(pages[..i]);
    var block := PageBlock(i + 1, pages[i]);
    assert pages[..i + 1][..i] == pages[..i];
    assert PageBlocks(pages[..i + 1]) == before + block;
    assert (before + block)[|before|..] == block;
  }

  /** The closing note naming the tabs that gave nothing, if any. */
  function FailureNote(errors: seq<string>): (r: string)
    ensures r == "" <==> errors == []
    ensures errors != [] ==> StartsWith(r, "Note: Could not extract content from: ")
    ensures errors != [] ==> EndsWith(r, Join(errors, ", ") + "\n")
    ensures errors != [] ==> |r| == |"Note: Could not extract content from: "| + |Join(errors, ", ")| + 1
  {
    if errors == [] then ""
    else
      var head := "Note: Could not extract content from: ";
      AppendParts(head, Join(errors, ", ") + "\n");
      EndsWithAppend(head, Join(errors, ", ") + "\n", Join(errors, ", ") + "\n");
      head + (Join(errors, ", ") + "\n")
  }

  /** The comparison prompt: the instructions (the user's, or the default
      for the page count), the persona's hint, a blank line, each page's
      section, then the failure note. */
  function ComparePrompt(instructions: string, persona: Option<Persona>, pages: seq<Page>,
                         errors: seq<string>): (r: string)
    ensures instructions != "" ==> StartsWith(r, instructions)
    ensures instructions == "" ==> StartsWith(r, DefaultInstructions(|pages|))
    ensures EndsWith(r, PageBlocks(pages) + FailureNote(errors))
    ensures var first := if instructions == "" then DefaultInstructions(|pages|) else instructions;
      StartsWith(r, first + PersonaNote(persona) + "\n\n")
      && |r| == |first| + |PersonaNote(persona)| + 2 + |PageBlocks(pages)| + |FailureNote(errors)|
  {
    var first := if instructions == "" then DefaultInstructions(|pages|) else instructions;
    var lead := first + PersonaNote(persona) + "\n\n";
    var tail := PageBlocks(pages) + FailureNote(errors);
    AppendParts(first, PersonaNote(persona));
    StartsWithAppend(first + PersonaNote(persona), "\n\n", first);
    StartsWithAppend(lead, tail, first);
    AppendParts(lead, tail);
    lead + tail
  }

  /** How a comparison ends. */
  datatype CompareOutcome =
    | NothingExtracted(message: string)
    | CompareNotConfigured
    | CompareSent(request: CompletionRequest)

  /** `executeCompare`: with no page to compare the failure is reported
      before the settings are looked at; otherwise the prompt goes out, and
      never with history. */
  function ExecuteCompare(rawInstructions: string, results: seq<TabResult>, persona: Option<Persona>,
                          settings: Settings): (r: CompareOutcome)
    ensures var cs := Contributions(results);
      r.NothingExtracted? <==> Pages(cs) == []
    ensures var cs := Contributions(results);
      r.CompareNotConfigured? <==> Pages(cs) != [] && !Configured(settings)
    ensures r.NothingExtracted? ==>
      StartsWith(r.message, NothingExtractedMessage)
      && (Failures(Contributions(results)) == [] <==> r.message == NothingExtractedMessage)
    ensures r.NothingExtracted? && Failures(Contributions(results)) != [] ==>
      r.message == NothingExtractedMessage + "Failed: " + Join(Failures(Contributions(results)), ", ")
    ensures r.CompareSent? ==>
      var cs := Contributions(results);
      && !r.request.includeHistory
      && r.request.serverAddress == settings.serverAddress && r.request.modelName == settings.modelName
      && r.request.systemPrompt == settings.systemPrompt && r.request.apiEndpoint == settings.apiEndpoint
      && r.request.prompt == ComparePrompt(Trim(rawInstructions), persona, Pages(cs), Failures(cs))
  {
    var cs := Contributions(results);
    var pages := Pages(cs);
    var errors := Failures(cs);
    if pages == [] then
      var failed := if errors == [] then "" else "Failed: " + Join(errors, ", ");
      assert (NothingExtractedMessage + failed)[..|NothingExtractedMessage|] == NothingExtractedMessage;
      NothingExtracted(NothingExtractedMessage + failed)
    else if !Configured(settings) then CompareNotConfigured
    else
      var prompt := ComparePrompt(Trim(rawInstructions), persona, pages, errors);
      CompareSent(CompletionRequest(settings.serverAddress, settings.modelName, prompt,
                                    false, settings.systemPrompt, settings.apiEndpoint))
  }

  /** A tab whose page has no text is reported under its title, and a single
      such tab leaves nothing to compare. */
  lemma BlankTabReportedByTitle(id: int, title: string, url: string, body: string, settings: Settings)
    requires IsBlank(body)
    ensures var results := [TabResult(id, Read(title, url, body))];
      Pages(Contributions(results)) == [] && Failures(Contributions(results)) == [TitleOr(title)]
      && ExecuteCompare("", results, None, settings).NothingExtracted?
  {
  }

  /** Without instructions, persona or failures, the prompt is the default
      instructions, a blank line, then the page sections. */
  lemma PlainComparePrompt(pages: seq<Page>)
    ensures ComparePrompt("", None, pages, []) == DefaultInstructions(|pages|) + "\n\n" + PageBlocks(pages)
  {
    var d := DefaultInstructions(|pages|);
    var blocks := PageBlocks(pages);
    assert PersonaNote(None) == "" && FailureNote([]) == "";
    EmptiesVanish(d, "\n\n", blocks);
  }

  lemma OnePageBlock(page: Page)
    ensures PageBlocks([page]) == PageBlock(1, page)
  {
    assert [page][..0] == [];
  }

  lemma EmptiesVanish(a: string, b: string, c: string)
    ensures a + "" + b + (c + "") == a + b + c
  {
    assert a + "" == a && c + "" == c;
  }

  /** A single readable tab with text is the one page, and nothing failed. */
  lemma OneReadableTab(id: int, title: string, url: string, body: string)
    requires !IsBlank(body)
    ensures var cs := Contributions([TabResult(id, Read(title, url, body))]);
      Pages(cs) == [Page(TitleOr(title), url, Extracted(body, TabLimit))] && Failures(cs) == []
  {
    var t := TabResult(id, Read(title, url, body));
    var page := Page(TitleOr(title), url, Extracted(body, TabLimit));
    assert Contributions([t]) == [PageOf(page)] by {
      ReadableTabIsPage(t);
    }
    OnePage(page);
  }

  lemma ReadableTabIsPage(t: TabResult)
    requires t.read.Read? && !IsBlank(t.read.body)
    ensures Contribute(t) == PageOf(Page(TitleOr(t.read.title), t.read.url, Extracted(t.read.body, TabLimit)))
  {
    ContributionContents(t);
  }

  lemma OnePage(page: Page)
    ensures Pages([PageOf(page)]) == [page] && Failures([PageOf(page)]) == []
  {
    assert Pages([PageOf(page)]) == [page] + Pages([]);
    assert Failures([PageOf(page)]) == [] + Failures([]);
  }

  /** One readable tab and no instructions: the single-page default, then the
      page's section numbered 1. */
  lemma OneTabCompare(id: int, title: string, url: string, body: string, settings: Settings)
    requires !IsBlank(body) && Configured(settings)
    ensures var r := ExecuteCompare("", [TabResult(id, Read(title, url, body))], None, settings);
      var page := Page(TitleOr(title), url, Extracted(body, TabLimit));
      r.CompareSent? && r.request.prompt == SinglePageInstructions + "\n\n" + PageBlock(1, page)
  {
    var page := Page(TitleOr(title), url, Extracted(body, TabLimit));
    OneReadableTab(id, title, url, body);
    TrimFixed([]);
    PlainComparePrompt([page]);
    OnePageBlock(page);
  }
}

=== FILE: history.dfy ===
/** The relay's conversation memory: a map from session key to a bounded list
    of turns. Two append paths exist: the manual one keeps a sliding window of
    the last twenty turns, the completion one appends a user/assistant pair and
    drops the oldest two turns when the list grows past twenty. */
module History {

  const MaxTurns: nat := 20
  const DefaultKey := "default"
  const UserRole := "user"
  const AssistantRole := "assistant"
  const SystemRole := "system"

  /** One chat message. The role is whatever string the sender supplied. */
  datatype Turn = Turn(role: string, content: string)

  /** One completed question and answer, as the completion path records it. */
  datatype Exchange = Exchange(prompt: string, answer: string)

  type Store = map<string, seq<Turn>>

  /** `conversationHistory.get(key) || []`. */
  function Get(store: Store, key: string): (h: seq<Turn>)
    ensures key !in store ==> h == []
    ensures key in store ==> h == store[key]
  {
    if key in store then store[key] else []
  }

  /** Every key holds at most twenty turns. */
  predicate Bounded(store: Store) {
    forall k :: k in store ==> |store[k]| <= MaxTurns
  }

  /** The last `n` elements of `s`, or all of `s` when it is shorter. */
  function LastN<T>(s: seq<T>, n: nat): (r: seq<T>)
    ensures |r| <= n
  {
    if |s| <= n then s else s[|s| - n..]
  }

  lemma LastNOfSuffix<T>(s: seq<T>, k: nat, n: nat)
    requires k <= |s| && |s| - k >= n
    ensures LastN(s[k..], n) == LastN(s, n)
  {
    assert s[k..][|s| - k - n..] == s[|s| - n..];
  }

  lemma Regroup<T>(a: seq<T>, b: seq<T>)
    requires |b| > 0
    ensures a + [b[0]] + b[1..] == a + b
  {
    assert b == [b[0]] + b[1..];
  }

  /** Windowing twice is windowing once. */
  lemma LastNAppend<T>(a: seq<T>, b: seq<T>, n: nat)
    ensures LastN(LastN(a, n) + b, n) == LastN(a + b, n)
  {
    if |a| > n {
      assert LastN(a, n) + b == (a + b)[|a| - n..];
      LastNOfSuffix(a + b, |a| - n, n);
    }
  }

  /** The manual append path: push one turn, then drop the single oldest
      turn if the list is now longer than twenty. */
  function PushTurn(h: seq<Turn>, t: Turn): (r: seq<Turn>)
    ensures |h| <= MaxTurns ==> r == LastN(h + [t], MaxTurns)
    ensures |h| <= MaxTurns ==> |r| <= MaxTurns
    ensures |r| >= 1 && r[|r| - 1] == t
  {
    var pushed := h + [t];
    if |pushed| > MaxTurns then pushed[1..] else pushed
  }

  function PushAll(h: seq<Turn>, ts: seq<Turn>): seq<Turn>
    decreases |ts|
  {
    if |ts| == 0 then h else PushAll(PushTurn(h, ts[0]), ts[1..])
  }

  /** Manual appends keep exactly the most recent twenty turns, in order. */
  lemma {:induction false} PushAllKeepsRecent(h: seq<Turn>, ts: seq<Turn>)
    requires |h| <= MaxTurns
    ensures PushAll(h, ts) == LastN(h + ts, MaxTurns)
    decreases |ts|
  {
    if |ts| == 0 {
      assert h + ts == h;
    } else {
      var h1 := PushTurn(h, ts[0]);
      assert h1 == LastN(h + [ts[0]], MaxTurns);
      assert PushAll(h, ts) == PushAll(h1, ts[1..]);
      PushAllKeepsRecent(h1, ts[1..]);
      LastNAppend(h + [ts[0]], ts[1..], MaxTurns);
      Regroup(h, ts);
    }
  }

  /** The two turns the completion path pushes for one exchange. */
  function Turns(e: Exchange): seq<Turn> {
    [Turn(UserRole, e.prompt), Turn(AssistantRole, e.answer)]
  }

  function Flatten(es: seq<Exchange>): (r: seq<Turn>)
    ensures |r| == 2 * |es|
  {
    if |es| == 0 then [] else Turns(es[0]) + Flatten(es[1..])
  }

  lemma {:induction false} FlattenAppend(a: seq<Exchange>, b: seq<Exchange>)
    ensures Flatten(a + b) == Flatten(a) + Flatten(b)
  {
    if |a| > 0 {
      FlattenAppend(a[1..], b);
      assert (a + b)[1..] == a[1..] + b;
    } else {
      assert a + b == b;
    }
  }

  /** The completion append path: push the user turn and the assistant turn,
      then drop the oldest two turns if the list is now longer than twenty. */
  function PushExchange(h: seq<Turn>, e: Exchange): (r: seq<Turn>)
    ensures |r| == if |h| + 2 > MaxTurns then |h| else |h| + 2
    ensures |h| <= MaxTurns ==> |r| <= MaxTurns
    ensures r == (h + Turns(e))[|h| + 2 - |r|..]
  {
    var pushed := h + Turns(e);
    if |pushed| > MaxTurns then pushed[2..] else pushed
  }

  function PushExchanges(h: seq<Turn>, es: seq<Exchange>): seq<Turn>
    decreases |es|
  {
    if |es| == 0 then h else PushExchanges(PushExchange(h, es[0]), es[1..])
  }

  lemma FlattenSnoc(hs: seq<Exchange>, e: Exchange)
    ensures Flatten(hs + [e]) == Flatten(hs) + Turns(e)
  {
    FlattenAppend(hs, [e]);
    assert Flatten([e]) == Turns(e) + Flatten([]);
  }

  lemma FlattenTail(w: seq<Exchange>)
    requires |w| > 0
    ensures Flatten(w)[2..] == Flatten(w[1..])
  {
  }

  /** A full history of ten exchanges loses its oldest exchange. */
  lemma PushExchangeFull(hs: seq<Exchange>, e: Exchange)
    requires |hs| == MaxTurns / 2
    ensures PushExchange(Flatten(hs), e) == Flatten((hs + [e])[1..])
  {
    FlattenSnoc(hs, e);
    FlattenTail(hs + [e]);
  }

  lemma PushExchangeWindow(hs: seq<Exchange>, e: Exchange)
    requires |hs| <= MaxTurns / 2
    ensures PushExchange(Flatten(hs), e) == Flatten(LastN(hs + [e], MaxTurns / 2))
  {
    if |hs| == MaxTurns / 2 {
      PushExchangeFull(hs, e);
    } else {
      FlattenSnoc(hs, e);
    }
  }

  lemma PushExchangesUnfold(h: seq<Turn>, es: seq<Exchange>)
    requires |es| > 0
    ensures PushExchanges(h, es) == PushExchanges(PushExchange(h, es[0]), es[1..])
  {
  }

  lemma WindowRegroup(hs: seq<Exchange>, es: seq<Exchange>)
    requires |es| > 0
    ensures LastN(LastN(hs + [es[0]], MaxTurns / 2) + es[1..], MaxTurns / 2) == LastN(hs + es, MaxTurns / 2)
  {
    LastNAppend(hs + [es[0]], es[1..], MaxTurns / 2);
    Regroup(hs, es);
  }

  /** Completion appends keep the ten most recent exchanges, whole and in order. */
  lemma {:induction false} PushExchangesKeepsRecentPairs(hs: seq<Exchange>, es: seq<Exchange>)
    requires |hs| <= MaxTurns / 2
    ensures PushExchanges(Flatten(hs), es) == Flatten(LastN(hs + es, MaxTurns / 2))
    decreases |es|
  {
    if |es| == 0 {
      assert hs + es == hs;
    } else {
      var w1 := LastN(hs + [es[0]], MaxTurns / 2);
      PushExchangesUnfold(Flatten(hs), es);
      PushExchangeWindow(hs, es[0]);
      PushExchangesKeepsRecentPairs(w1, es[1..]);
      WindowRegroup(hs, es);
    }
  }

  /** Eleven exchanges into a fresh history leave twenty turns: the last ten
      exchanges, oldest first. */
  lemma ElevenExchanges(es: seq<Exchange>)
    requires |es| == 11
    ensures |PushExchanges([], es)| == MaxTurns
    ensures PushExchanges([], es) == Flatten(es[1..])
  {
    assert Flatten([]) == [];
    PushExchangesKeepsRecentPairs([], es);
    assert [] + es == es;
  }

  /** `addToHistory` (manual path) on the default key. */
  function AddTurn(store: Store, t: Turn): (r: Store)
    ensures r.Keys == store.Keys + {DefaultKey}
    ensures forall k :: k in store && k != DefaultKey ==> r[k] == store[k]
    ensures Bounded(store) ==> Bounded(r)
    ensures Get(r, DefaultKey) == PushTurn(Get(store, DefaultKey), t)
  {
    store[DefaultKey := PushTurn(Get(store, DefaultKey), t)]
  }

  /** The completion path's history update on the default key. */
  function RecordExchange(store: Store, e: Exchange): (r: Store)
    ensures r.Keys == store.Keys + {DefaultKey}
    ensures forall k :: k in store && k != DefaultKey ==> r[k] == store[k]
    ensures Bounded(store) ==> Bounded(r)
    ensures Get(r, DefaultKey) == PushExchange(Get(store, DefaultKey), e)
  {
    store[DefaultKey := PushExchange(Get(store, DefaultKey), e)]
  }

  /** `conversationHistory.clear()`: every key forgets its turns. */
  function ClearAll(store: Store): (r: Store)
    ensures forall k :: Get(r, k) == []
    ensures Bounded(r)
  {
    map[]
  }
}

=== FILE: js_text.dfy ===
/** String primitives of the JavaScript runtime that the extension relies on:
    `trim`, ASCII `toLowerCase`, `startsWith`/`endsWith`, `split('\n')` and
    decimal formatting of integers. Strings are sequences of code points. */
module JsText {

  datatype Option<+T> = None | Some(value: T)

  /** The WhiteSpace and LineTerminator code points that String.prototype.trim removes. */
  predicate IsJsWhitespace(c: char) {
    || c == '\t' || c == '\n' || c == '\U{000B}' || c == '\U{000C}' || c == '\r'
    || c == ' ' || c == '\U{00A0}' || c == '\U{1680}'
    || ('\U{2000}' <= c <= '\U{200A}')
    || c == '\U{2028}' || c == '\U{2029}' || c == '\U{202F}' || c == '\U{205F}'
    || c == '\U{3000}' || c == '\U{FEFF}'
  }

  predicate IsBlank(s: string) {
    forall k :: 0 <= k < |s| ==> IsJsWhitespace(s[k])
  }

  predicate StartsWith(s: string, prefix: string) {
    |prefix| <= |s| && s[..|prefix|] == prefix
  }

  predicate EndsWith(s: string, suffix: string) {
    |suffix| <= |s| && s[|s| - |suffix|..] == suffix
  }

  /** Leading whitespace removed: the result is the longest suffix of `s`
      that does not start with whitespace. */
  function TrimStart(s: string): (r: string)
    ensures |r| <= |s| && r == s[|s| - |r|..]
    ensures forall k :: 0 <= k < |s| - |r| ==> IsJsWhitespace(s[k])
    ensures r == [] || !IsJsWhitespace(r[0])
  {
    if |s| > 0 && IsJsWhitespace(s[0]) then TrimStart(s[1..]) else s
  }

  /** Trailing whitespace removed: the result is the longest prefix of `s`
      that does not end with whitespace. */
  function TrimEnd(s: string): (r: string)
    ensures |r| <= |s| && r == s[..|r|]
    ensures forall k :: |r| <= k < |s| ==> IsJsWhitespace(s[k])
    ensures r == [] || !IsJsWhitespace(r[|r| - 1])
  {
    if |s| > 0 && IsJsWhitespace(s[|s| - 1]) then TrimEnd(s[..|s| - 1]) else s
  }

  /** The parts of a three-way concatenation sit at their offsets. */
  lemma ConcatParts(a: string, b: string, c: string)
    ensures StartsWith(a + b + c, a)
    ensures (a + b + c)[|a|..|a| + |b|] == b && (a + b + c)[|a| + |b|..] == c
  {
    assert (a + b + c)[..|a|] == a;
  }

  /** Both parts of a concatenation are where they should be. */
  lemma AppendParts(a: string, b: string)
    ensures StartsWith(a + b, a) && EndsWith(a + b, b)
  {
    assert (a + b)[..|a|] == a;
    assert (a + b)[|a|..] == b;
  }

  /** A prefix of the first part is a prefix of the whole. */
  lemma StartsWithAppend(s: string, t: string, u: string)
    requires StartsWith(s, u)
    ensures StartsWith(s + t, u)
  {
    assert (s + t)[..|u|] == s[..|u|];
  }

  /** A suffix of the last part is a suffix of the whole. */
  lemma EndsWithAppend(s: string, t: string, u: string)
    requires EndsWith(t, u)
    ensures EndsWith(s + t, u)
  {
    assert (s + t)[|s + t| - |u|..] == t[|t| - |u|..];
  }

  /** String.prototype.trim. TrimAround shows the result is exactly the
      input without its whitespace ends. */
  function Trim(s: string): (r: string)
    ensures |r| <= |s|
    ensures r == [] <==> IsBlank(s)
    ensures r == [] || (!IsJsWhitespace(r[0]) && !IsJsWhitespace(r[|r| - 1]))
  {
    var t := TrimStart(s);
    assert IsBlank(t) ==> t == [];
    TrimEnd(t)
  }

  lemma TrimIdempotent(s: string)
    ensures Trim(Trim(s)) == Trim(s)
  {
    var t := Trim(s);
    if t != [] {
      assert TrimStart(t) == t;
      assert TrimEnd(t) == t;
    }
  }

  /** Text with no whitespace at either end is its own trim. */
  lemma TrimFixed(s: string)
    requires s == [] || (!IsJsWhitespace(s[0]) && !IsJsWhitespace(s[|s| - 1]))
    ensures Trim(s) == s
  {
    assert TrimStart(s) == s;
    assert TrimEnd(s) == s;
  }

  /** Leading whitespace does not survive the trim. */
  lemma TrimAfterBlank(c: char, s: string)
    requires IsJsWhitespace(c)
    ensures Trim([c] + s) == Trim(s)
  {
    assert ([c] + s)[1..] == s;
  }

  /** Trailing whitespace does not survive the trim either. */
  lemma TrimBeforeBlank(s: string, c: char)
    requires IsJsWhitespace(c)
    ensures Trim(s + [c]) == Trim(s)
  {
    if IsBlank(s) {
      assert forall k :: 0 <= k < |s + [c]| ==> (s + [c])[k] == if k < |s| then s[k] else c;
    } else {
      var t := TrimStart(s);
      TrimStartAppend(s, [c]);
      assert (t + [c])[..|t + [c]| - 1] == t;
      assert TrimEnd(t + [c]) == TrimEnd(t);
    }
  }

  /** The first and last characters of a blank string, and what is left
      without either, are blank too. */
  lemma BlankParts(w: string)
    requires w != [] && IsBlank(w)
    ensures IsJsWhitespace(w[0]) && IsBlank(w[1..])
    ensures IsJsWhitespace(w[|w| - 1]) && IsBlank(w[..|w| - 1])
  {
    assert forall k :: 0 <= k < |w| - 1 ==> w[1..][k] == w[k + 1] && w[..|w| - 1][k] == w[k];
  }

  /** Any amount of leading whitespace is removed. */
  lemma {:induction false} TrimAfterBlanks(w: string, s: string)
    requires IsBlank(w)
    ensures Trim(w + s) == Trim(s)
  {
    if w != [] {
      BlankParts(w);
      assert w + s == [w[0]] + (w[1..] + s);
      TrimAfterBlank(w[0], w[1..] + s);
      TrimAfterBlanks(w[1..], s);
    } else {
      assert w + s == s;
    }
  }

  /** Any amount of trailing whitespace is removed. */
  lemma {:induction false} TrimBeforeBlanks(s: string, w: string)
    requires IsBlank(w)
    ensures Trim(s + w) == Trim(s)
  {
    if w != [] {
      BlankParts(w);
      var v := w[..|w| - 1];
      assert s + w == (s + v) + [w[|w| - 1]];
      TrimBeforeBlank(s + v, w[|w| - 1]);
      TrimBeforeBlanks(s, v);
    } else {
      assert s + w == s;
    }
  }

  /** The trim of a text surrounded by whitespace, which itself neither starts
      nor ends with whitespace, is that text: trim removes the whitespace ends
      and nothing else. */
  lemma TrimAround(before: string, core: string, after: string)
    requires IsBlank(before) && IsBlank(after)
    requires core == [] || (!IsJsWhitespace(core[0]) && !IsJsWhitespace(core[|core| - 1]))
    ensures Trim(before + core + after) == core
  {
    assert before + core + after == before + (core + after);
    TrimAfterBlanks(before, core + after);
    TrimBeforeBlanks(core, after);
    TrimFixed(core);
  }

  /** Whatever follows a non-blank string stays past its trimmed start. */
  lemma {:induction false} TrimStartAppend(s: string, w: string)
    requires !IsBlank(s)
    ensures TrimStart(s + w) == TrimStart(s) + w
  {
    if IsJsWhitespace(s[0]) {
      assert (s + w)[1..] == s[1..] + w;
      TrimStartAppend(s[1..], w);
    }
  }

  /** ASCII case mapping of String.prototype.toLowerCase. */
  function LowerChar(c: char): char {
    if 'A' <= c <= 'Z' then (c as int + 32) as char else c
  }

  function ToLower(s: string): (r: string)
    ensures |r| == |s|
    ensures forall k :: 0 <= k < |s| ==> r[k] == LowerChar(s[k])
  {
    seq(|s|, k requires 0 <= k < |s| => LowerChar(s[k]))
  }

  /** Lowering leaves text without capitals unchanged ... */
  lemma LowerFixed(s: string)
    requires forall k :: 0 <= k < |s| ==> !('A' <= s[k] <= 'Z')
    ensures ToLower(s) == s
  {
  }

  /** ... and leaves no capitals behind. */
  lemma LowerIsLower(s: string)
    ensures forall k :: 0 <= k < |ToLower(s)| ==> !('A' <= ToLower(s)[k] <= 'Z')
  {
  }

  lemma ToLowerAppend(a: string, b: string)
    ensures ToLower(a + b) == ToLower(a) + ToLower(b)
  {
  }

  lemma ToLowerIdempotent(s: string)
    ensures ToLower(ToLower(s)) == ToLower(s)
  {
  }

  /** Lowering never turns a character into whitespace or back. */
  lemma LowerKeepsWhitespace(c: char)
    ensures IsJsWhitespace(LowerChar(c)) <==> IsJsWhitespace(c)
  {
  }

  lemma {:induction false} TrimStartLower(s: string)
    ensures TrimStart(ToLower(s)) == ToLower(TrimStart(s))
    decreases |s|
  {
    if |s| > 0 {
      LowerKeepsWhitespace(s[0]);
      if IsJsWhitespace(s[0]) {
        assert ToLower(s)[1..] == ToLower(s[1..]);
        TrimStartLower(s[1..]);
      }
    }
  }

  lemma {:induction false} TrimEndLower(s: string)
    ensures TrimEnd(ToLower(s)) == ToLower(TrimEnd(s))
    decreases |s|
  {
    if |s| > 0 {
      LowerKeepsWhitespace(s[|s| - 1]);
      if IsJsWhitespace(s[|s| - 1]) {
        assert ToLower(s)[..|s| - 1] == ToLower(s[..|s| - 1]);
        TrimEndLower(s[..|s| - 1]);
      }
    }
  }

  /** Trimming and lowering commute. */
  lemma TrimLower(s: string)
    ensures Trim(ToLower(s)) == ToLower(Trim(s))
  {
    TrimStartLower(s);
    TrimEndLower(TrimStart(s));
  }

  /** String.prototype.split('\n'): always at least one piece; no piece
      holds a line feed (SplitLinesHaveNoNewline) and joining the pieces
      back gives the input (JoinSplit, SplitJoin). */
  function SplitLines(s: string): (r: seq<string>)
    ensures |r| >= 1
  {
    if |s| == 0 then [""]
    else
      var rest := SplitLines(s[1..]);
      if s[0] == '\n' then [""] + rest
      else [[s[0]] + rest[0]] + rest[1..]
  }

  lemma {:induction false} SplitLinesHaveNoNewline(s: string)
    ensures forall i :: 0 <= i < |SplitLines(s)| ==> '\n' !in SplitLines(s)[i]
  {
    if |s| > 0 {
      SplitLinesHaveNoNewline(s[1..]);
      var rest := SplitLines(s[1..]);
      if s[0] != '\n' {
        assert '\n' !in [s[0]] + rest[0];
      }
    }
  }

  /** Array.prototype.join(sep) on strings. */
  function Join(pieces: seq<string>, sep: string): string {
    if |pieces| == 0 then ""
    else if |pieces| == 1 then pieces[0]
    else pieces[0] + sep + Join(pieces[1..], sep)
  }

  /** Array.prototype.join('\n'). */
  function JoinLines(lines: seq<string>): string {
    Join(lines, "\n")
  }

  lemma {:induction false} JoinPrepend(x: string, lines: seq<string>)
    requires |lines| >= 1
    ensures JoinLines([x + lines[0]] + lines[1..]) == x + JoinLines(lines)
  {
    var ls := [x + lines[0]] + lines[1..];
    assert ls[1..] == lines[1..];
  }

  /** Splitting then joining is the identity. */
  lemma {:induction false} JoinSplit(s: string)
    ensures JoinLines(SplitLines(s)) == s
  {
    if |s| > 0 {
      var rest := SplitLines(s[1..]);
      JoinSplit(s[1..]);
      if s[0] == '\n' {
        var ls := [""] + rest;
        assert ls[1..] == rest;
        assert JoinLines(ls) == "" + "\n" + JoinLines(rest);
        assert s == [s[0]] + s[1..];
      } else {
        JoinPrepend([s[0]], rest);
        assert s == [s[0]] + s[1..];
      }
    }
  }

  lemma {:induction false} SplitSingle(a: string)
    requires '\n' !in a
    ensures SplitLines(a) == [a]
  {
    if |a| > 0 {
      SplitSingle(a[1..]);
      assert a == [a[0]] + a[1..];
    }
  }

  lemma {:induction false} SplitAfterLine(a: string, b: string)
    requires '\n' !in a
    ensures SplitLines(a + "\n" + b) == [a] + SplitLines(b)
  {
    if |a| == 0 {
      assert a + "\n" + b == "\n" + b;
      assert ("\n" + b)[1..] == b;
    } else {
      SplitAfterLine(a[1..], b);
      assert (a + "\n" + b)[1..] == a[1..] + "\n" + b;
      assert [a[0]] + a[1..] == a;
    }
  }

  /** Joining lines that hold no line feed, then splitting, gives the lines back. */
  lemma {:induction false} SplitJoin(lines: seq<string>)
    requires |lines| >= 1
    requires forall i :: 0 <= i < |lines| ==> '\n' !in lines[i]
    ensures SplitLines(JoinLines(lines)) == lines
  {
    if |lines| == 1 {
      SplitSingle(lines[0]);
    } else {
      SplitJoin(lines[1..]);
      SplitAfterLine(lines[0], JoinLines(lines[1..]));
      assert [lines[0]] + lines[1..] == lines;
    }
  }

  /** Decimal digits of a natural number, most significant first. */
  function NatDecimal(n: nat): (r: string)
    ensures |r| >= 1
    ensures forall k :: 0 <= k < |r| ==> '0' <= r[k] <= '9'
    ensures |r| > 1 ==> r[0] != '0'
  {
    if n < 10 then [('0' as int + n) as char]
    else NatDecimal(n / 10) + [('0' as int + n % 10) as char]
  }

  /** Number-to-string conversion of `${n}` for an integer `n`. */
  function Decimal(n: int): string {
    if n < 0 then "-" + NatDecimal(-n) else NatDecimal(n)
  }

  /** Value of a string of decimal digits. */
  function DigitsValue(s: string): int {
    if |s| == 0 then 0 else DigitsValue(s[..|s| - 1]) * 10 + (s[|s| - 1] as int - '0' as int)
  }

  /** Formatting a natural number in decimal loses nothing. */
  lemma {:induction false} DecimalRoundTrip(n: nat)
    ensures DigitsValue(NatDecimal(n)) == n
  {
    if n >= 10 {
      DecimalRoundTrip(n / 10);
      var r := NatDecimal(n);
      assert r[..|r| - 1] == NatDecimal(n / 10);
    }
  }
}

=== FILE: json_value.dfy ===
/** The values JSON.parse can produce, with the two JavaScript conversions the
    relay applies to them: truthiness (`if (x)`) and string coercion
    (`fullResponse += x`). Numbers are integers in this model. */
module JsonValue {
  import opened JsText

  datatype Json =
    | JNull
    | JBool(b: bool)
    | JNum(n: int)
    | JStr(s: string)
    | JArr(items: seq<Json>)
    | JObj(fields: map<string, Json>)

  /** JavaScript truthiness: null, false, 0 and "" are falsy; every array and object is truthy. */
  predicate Truthy(v: Json) {
    match v
    case JNull => false
    case JBool(b) => b
    case JNum(n) => n != 0
    case JStr(s) => s != ""
    case JArr(_) => true
    case JObj(_) => true
  }

  /** `obj.name` or `obj?.name` on a parsed value: only objects carry the
      property names the relay asks for; anything else yields undefined. */
  function Field(v: Json, name: string): (r: Option<Json>)
    ensures r.Some? <==> v.JObj? && name in v.fields
    ensures r.Some? ==> r.value == v.fields[name]
  {
    if v.JObj? && name in v.fields then Some(v.fields[name]) else None
  }

  /** `x?.[0]`: the first element of an array, the "0" property of an object,
      or the first character of a string. */
  function Index0(v: Json): (r: Option<Json>)
    ensures v.JArr? && |v.items| > 0 ==> r == Some(v.items[0])
    ensures r.Some? ==> v.JArr? || v.JObj? || v.JStr?
  {
    match v
    case JArr(items) => if |items| > 0 then Some(items[0]) else None
    case JObj(fields) => if "0" in fields then Some(fields["0"]) else None
    case JStr(s) => if |s| > 0 then Some(JStr([s[0]])) else None
    case _ => None
  }

  /** Whether the string coercion `'' + v` completes. A parsed object inherits
      Object.prototype.toString unless it has an own `toString` property; JSON
      can only give that property a non-callable value, so OrdinaryToPrimitive
      finds no usable method and throws a TypeError (an own `valueOf` is
      skipped the same way and does not matter). An array coerces through
      `join`, which coerces every element that is not null. */
  predicate Coercible(v: Json) {
    match v
    case JObj(fields) => "toString" !in fields
    case JArr(items) => forall i :: 0 <= i < |items| ==> Coercible(items[i])
    case _ => true
  }

  /** An own `toString` makes an object, and any array holding it, throw on coercion. */
  lemma OwnToStringThrows(fields: map<string, Json>, before: seq<Json>, after: seq<Json>)
    requires "toString" in fields
    ensures !Coercible(JObj(fields))
    ensures !Coercible(JArr(before + [JObj(fields)] + after))
  {
    assert (before + [JObj(fields)] + after)[|before|] == JObj(fields);
  }

  predicate AllCoercible(vs: seq<Json>) {
    forall i :: 0 <= i < |vs| ==> Coercible(vs[i])
  }

  /** String coercion, as in `'' + v`, for a value on which it does not throw. */
  function ToJsString(v: Json): string
    requires Coercible(v)
    decreases v, 0
  {
    match v
    case JNull => "null"
    case JBool(b) => if b then "true" else "false"
    case JNum(n) => Decimal(n)
    case JStr(s) => s
    case JArr(items) =>
      // Array.prototype.join(','): null elements become the empty string.
      Join(seq(|items|, i requires 0 <= i < |items| => ItemString(items[i])), ",")
    case JObj(_) => "[object Object]"
  }

  /** How `Array.prototype.join` writes one element: null as the empty string. */
  function ItemString(v: Json): string
    requires Coercible(v)
    decreases v, 1
  {
    if v.JNull? then "" else ToJsString(v)
  }

  /** The concatenation `'' + v0 + v1 + ...` of a sequence of values. */
  function Concat(vs: seq<Json>): string
    requires AllCoercible(vs)
  {
    if |vs| == 0 then "" else Concat(vs[..|vs| - 1]) + ToJsString(vs[|vs| - 1])
  }

  lemma {:induction false} ConcatAppend(a: seq<Json>, b: seq<Json>)
    requires AllCoercible(a) && AllCoercible(b)
    ensures AllCoercible(a + b)
    ensures Concat(a + b) == Concat(a) + Concat(b)
  {
    if |b| > 0 {
      ConcatAppend(a, b[..|b| - 1]);
      assert (a + b)[..|a + b| - 1] == a + b[..|b| - 1];
    } else {
      assert a + b == a;
    }
  }

  lemma ConcatSnoc(a: seq<Json>, v: Json)
    requires AllCoercible(a) && Coercible(v)
    ensures AllCoercible(a + [v])
    ensures Concat(a + [v]) == Concat(a) + ToJsString(v)
  {
    assert (a + [v])[..|a + [v]| - 1] == a;
  }

  /** When every value is a string, coercion is plain concatenation of the strings. */
  function Strings(vs: seq<Json>): string
    requires forall i :: 0 <= i < |vs| ==> vs[i].JStr?
  {
    if |vs| == 0 then "" else Strings(vs[..|vs| - 1]) + vs[|vs| - 1].s
  }

  lemma {:induction false} ConcatOfStrings(vs: seq<Json>)
    requires forall i :: 0 <= i < |vs| ==> vs[i].JStr?
    ensures Concat(vs) == Strings(vs)
  {
    if |vs| > 0 {
      ConcatOfStrings(vs[..|vs| - 1]);
    }
  }

  /** A truthy value whose coercion is nevertheless empty: `[]` and `[null]`. */
  lemma TruthyButEmpty()
    ensures Truthy(JArr([])) && ToJsString(JArr([])) == ""
    ensures Truthy(JArr([JNull])) && ToJsString(JArr([JNull])) == ""
  {
    var one := seq(1, i requires 0 <= i < 1 => ItemString([JNull][i]));
    assert one == [""];
  }
}

=== FILE: page_text.dfy ===
/** The text the side panel extracts from a page body before it becomes
    context: runs of whitespace collapsed to one space, the ends trimmed, and
    the result cut to a character budget with a visible marker. */
module PageText {
  import opened JsText

  const TruncationMarker := "... [truncated]"

  /** Budget for the page content of the current tab. */
  const PageLimit := 10000

  /** Budget for each tab of a multi-tab comparison. */
  const TabLimit := 5000

  /** `text.replace(/\s+/g, ' ')`: every maximal run of whitespace becomes a
      single space; the result has only spaces as whitespace and never two in
      a row, and starts with a space exactly when the input starts with
      whitespace. */
  function Collapse(s: string): (r: string)
    ensures |r| <= |s|
    ensures r == [] <==> s == []
    ensures r != [] ==> (r[0] == ' ' <==> IsJsWhitespace(s[0]))
    ensures forall k :: 0 <= k < |r| && IsJsWhitespace(r[k]) ==> r[k] == ' '
    ensures forall k :: 0 <= k < |r| - 1 ==> !(r[k] == ' ' && r[k + 1] == ' ')
    decreases |s|
  {
    if |s| == 0 then ""
    else if IsJsWhitespace(s[0]) then
      var t := TrimStart(s);
      " " + Collapse(t)
    else [s[0]] + Collapse(s[1..])
  }

  /** A leading run of whitespace is written as one space. */
  lemma CollapseLeadingBlank(s: string)
    requires s != [] && IsJsWhitespace(s[0])
    ensures Collapse(s) == " " + Collapse(TrimStart(s))
  {
  }

  /** A visible first character is kept as it is. */
  lemma CollapseVisibleHead(c: char, s: string)
    requires !IsJsWhitespace(c)
    ensures Collapse([c] + s) == [c] + Collapse(s)
  {
    assert ([c] + s)[1..] == s;
  }

  /** A run of whitespace in front of a word, or at the very end, is written
      as one space. */
  lemma CollapseBlankRun(w: string, s: string)
    requires w != [] && IsBlank(w)
    requires s == [] || !IsJsWhitespace(s[0])
    ensures Collapse(w + s) == " " + Collapse(s)
  {
    TrimStartBlank(w, s);
    assert (w + s)[0] == w[0];
    CollapseLeadingBlank(w + s);
  }

  /** Two words with whitespace between them keep exactly one space between
      them, whatever the run was made of. */
  lemma SeparatorKept(x: char, w: string, y: char)
    requires !IsJsWhitespace(x) && !IsJsWhitespace(y)
    requires w != [] && IsBlank(w)
    ensures Collapse([x] + w + [y]) == [x, ' ', y]
  {
    assert [x] + w + [y] == [x] + (w + [y]);
    CollapseVisibleHead(x, w + [y]);
    CollapseBlankRun(w, [y]);
    CollapseVisibleHead(y, []);
    assert [y] + [] == [y];
  }

  /** Leading whitespace before a word is all that the trimmed start removes. */
  lemma {:induction false} TrimStartBlank(w: string, b: string)
    requires IsBlank(w)
    requires b == [] || !IsJsWhitespace(b[0])
    ensures TrimStart(w + b) == b
  {
    if w != [] {
      BlankParts(w);
      assert (w + b)[1..] == w[1..] + b;
      TrimStartBlank(w[1..], b);
    } else {
      assert w + b == b;
    }
  }

  /** The non-whitespace characters of a string, in order. */
  function Visible(s: string): (r: string)
    ensures |r| <= |s|
    ensures forall k :: 0 <= k < |r| ==> !IsJsWhitespace(r[k])
  {
    if |s| == 0 then ""
    else if IsJsWhitespace(s[0]) then Visible(s[1..])
    else [s[0]] + Visible(s[1..])
  }

  lemma {:induction false} VisibleOfBlankPrefix(s: string, n: nat)
    requires n <= |s|
    requires forall k :: 0 <= k < n ==> IsJsWhitespace(s[k])
    ensures Visible(s) == Visible(s[n..])
  {
    if n > 0 {
      VisibleOfBlankPrefix(s[1..], n - 1);
      assert s[1..][n - 1..] == s[n..];
    }
  }

  /** Collapsing changes whitespace only: the visible text is kept, in order. */
  lemma {:induction false} CollapseKeepsVisible(s: string)
    ensures Visible(Collapse(s)) == Visible(s)
    decreases |s|
  {
    if |s| > 0 {
      if IsJsWhitespace(s[0]) {
        var t := TrimStart(s);
        CollapseKeepsVisible(t);
        assert (" " + Collapse(t))[1..] == Collapse(t);
        VisibleOfBlankPrefix(s, |s| - |t|);
      } else {
        CollapseKeepsVisible(s[1..]);
        assert ([s[0]] + Collapse(s[1..]))[1..] == Collapse(s[1..]);
      }
    }
  }

  /** A blank string collapses to nothing but a single space. */
  lemma CollapseBlank(s: string)
    ensures IsBlank(Collapse(s)) <==> IsBlank(s)
  {
    if |s| > 0 && IsJsWhitespace(s[0]) {
      var t := TrimStart(s);
      if IsBlank(s) {
        assert t == [];
      } else {
        assert t != [];
        assert Collapse(s)[1] == Collapse(t)[0];
      }
    } else if |s| > 0 {
      assert Collapse(s)[0] == s[0];
    }
  }

  /** `text.length > limit ? text.substring(0, limit) + '... [truncated]' : text`. */
  function Truncate(text: string, limit: nat): (r: string)
    ensures |text| <= limit ==> r == text
    ensures |text| > limit ==>
      |r| == limit + |TruncationMarker| && StartsWith(text, r[..limit]) && EndsWith(r, TruncationMarker)
  {
    if |text| > limit then text[..limit] + TruncationMarker else text
  }

  /** Truncated text never exceeds the budget by more than the marker, and
      always begins with as much of the original as the budget allows. */
  lemma TruncateBounds(text: string, limit: nat)
    ensures |Truncate(text, limit)| <= limit + |TruncationMarker|
    ensures |text| <= limit ==> |Truncate(text, limit)| == |text|
    ensures var n := if |text| <= limit then |text| else limit;
      Truncate(text, limit)[..n] == text[..n]
  {
  }

  /** Cutting twice to the same budget cuts once. */
  lemma TruncateIdempotent(text: string, limit: nat)
    ensures Truncate(Truncate(text, limit), limit) == Truncate(text, limit)
  {
    if |text| > limit {
      var r := Truncate(text, limit);
      assert r[..limit] == text[..limit];
    }
  }

  /** What the cut removed is exactly the tail past the budget. */
  lemma TruncateRecoverable(text: string, limit: nat)
    requires |text| > limit
    ensures Truncate(text, limit)[..limit] + text[limit..] == text
  {
  }

  /** The content a page-reading script returns for a body text and budget. */
  function Extracted(body: string, limit: nat): (r: string)
    ensures r == "" <==> IsBlank(body)
    ensures |r| <= limit + |TruncationMarker|
  {
    CollapseBlank(body);
    var t := Trim(Collapse(body));
    TruncateBounds(t, limit);
    Truncate(t, limit)
  }

  /** `getPageContent`: the text of the current tab, extracted with the
      single-page budget. It is empty only for a blank body, keeps every
      visible character when it fits, and otherwise ends with the marker. */
  function PageContent(body: string): (r: string)
    ensures r == "" <==> IsBlank(body)
    ensures |r| <= PageLimit + |TruncationMarker|
    ensures |Trim(Collapse(body))| <= PageLimit ==> Visible(r) == Visible(body)
    ensures |Trim(Collapse(body))| > PageLimit ==> EndsWith(r, TruncationMarker)
  {
    if |Trim(Collapse(body))| <= PageLimit then
      ExtractedKeepsVisible(body, PageLimit);
      Extracted(body, PageLimit)
    else Extracted(body, PageLimit)
  }

  /** Extraction keeps every visible character when the text fits the budget. */
  lemma ExtractedKeepsVisible(body: string, limit: nat)
    requires |Trim(Collapse(body))| <= limit
    ensures Visible(Extracted(body, limit)) == Visible(body)
  {
    var c := Collapse(body);
    assert Extracted(body, limit) == Trim(c);
    TrimKeepsVisible(c);
    CollapseKeepsVisible(body);
  }

  /** Trimming removes whitespace only. */
  lemma TrimKeepsVisible(c: string)
    ensures Visible(Trim(c)) == Visible(c)
  {
    var s := TrimStart(c);
    VisibleOfBlankPrefix(c, |c| - |s|);
    VisibleOfTrimEnd(s);
  }

  lemma {:induction false} VisibleOfTrimEnd(s: string)
    ensures Visible(TrimEnd(s)) == Visible(s)
  {
    VisibleOfBlankSuffix(s, |TrimEnd(s)|);
  }

  lemma {:induction false} VisibleOfBlankSuffix(s: string, n: nat)
    requires n <= |s|
    requires forall k :: n <= k < |s| ==> IsJsWhitespace(s[k])
    ensures Visible(s) == Visible(s[..n])
  {
    if n == 0 {
      BlankInvisible(s);
    } else {
      VisibleOfBlankSuffix(s[1..], n - 1);
      assert s[1..][..n - 1] == s[..n][1..];
    }
  }

  lemma {:induction false} BlankInvisible(s: string)
    requires IsBlank(s)
    ensures Visible(s) == ""
  {
    if |s| > 0 {
      BlankInvisible(s[1..]);
    }
  }
}

=== FILE: personas.dfy ===
/** Site personas: URL-pattern matching against a tab's host name, the first
    stored persona with a matching pattern, and the per-domain dismissal of
    the persona badge. Host names are inputs: the URL parser that yields them
    is not part of this model, and an unparseable URL gives the empty host. */
module Personas {
  import opened JsText

  datatype Persona = Persona(id: string, name: string, systemPrompt: string, urlPatterns: seq<string>)

  const WildcardPrefix := "*."

  /** The personas seeded on first run, in stored order. */
  const DefaultPersonas: seq<Persona> := [
    Persona("default-github", "Code Reviewer",
      "You are a senior code reviewer. Focus on bugs, security issues, performance problems, and readability. Be concise and direct. When suggesting fixes, show the corrected code.",
      ["github.com", "*.github.com", "gitlab.com", "*.gitlab.com"]),
    Persona("default-stackoverflow", "Tech Explainer",
      "You are a patient technical explainer. Give clear, practical answers with code examples when relevant. Mention common pitfalls. Prefer standard library solutions over third-party dependencies.",
      ["stackoverflow.com", "*.stackexchange.com"]),
    Persona("default-youtube", "Video Summarizer",
      "You are a video content analyst. Summarize key points clearly with timestamps when available. Extract actionable takeaways and highlight the most important claims or arguments made.",
      ["youtube.com", "www.youtube.com", "youtu.be"]),
    Persona("default-reddit", "Discussion Analyst",
      "You are a discussion analyst. Identify the main arguments, points of consensus, and areas of disagreement. Separate facts from opinions. Note the overall sentiment and any notable minority viewpoints.",
      ["reddit.com", "*.reddit.com"]),
    Persona("default-wikipedia", "Research Assistant",
      "You are a research assistant. Help synthesize information, identify key concepts, and explain complex topics in accessible language. Cross-reference claims when possible and note areas of uncertainty.",
      ["*.wikipedia.org"]),
    Persona("default-twitter", "Social Analyst",
      "You are a social media analyst. Help contextualize posts, threads, and discussions. Identify key claims, check for logical fallacies, and provide relevant background context.",
      ["twitter.com", "x.com"])
  ]

  /** `matchUrlPattern`: the pattern is trimmed and lowered; `*.suffix`
      matches the suffix itself or any host ending in "." + suffix; any other
      pattern must equal the lowered host. The empty host matches nothing. */
  function MatchUrlPattern(pattern: string, host: string): (r: bool)
    ensures host == "" ==> !r
    ensures var p := ToLower(Trim(pattern));
      StartsWith(p, WildcardPrefix) ==>
        (r <==> host != "" && (ToLower(host) == p[2..] || EndsWith(ToLower(host), "." + p[2..])))
    ensures var p := ToLower(Trim(pattern));
      !StartsWith(p, WildcardPrefix) ==> (r <==> host != "" && ToLower(host) == p)
  {
    if host == "" then false
    else
      var p := ToLower(Trim(pattern));
      var lowerHost := ToLower(host);
      if StartsWith(p, WildcardPrefix) then
        var suffix := p[|WildcardPrefix|..];
        lowerHost == suffix || EndsWith(lowerHost, "." + suffix)
      else lowerHost == p
  }

  /** Host names are compared without regard to case. */
  lemma HostCaseIgnored(pattern: string, host: string)
    ensures MatchUrlPattern(pattern, host) == MatchUrlPattern(pattern, ToLower(host))
  {
    ToLowerIdempotent(host);
  }

  /** A pattern already trimmed and lowered is used as written. */
  lemma NormalPattern(pattern: string)
    requires pattern == [] || (!IsJsWhitespace(pattern[0]) && !IsJsWhitespace(pattern[|pattern| - 1]))
    requires forall k :: 0 <= k < |pattern| ==> !('A' <= pattern[k] <= 'Z')
    ensures ToLower(Trim(pattern)) == pattern
  {
    TrimFixed(pattern);
  }

  lemma EndsWithParts(prefix: string, suffix: string)
    ensures EndsWith(prefix + suffix, "." + suffix) <==> |prefix| > 0 && prefix[|prefix| - 1] == '.'
  {
    var h := prefix + suffix;
    if |prefix| > 0 {
      assert h[|h| - |suffix| - 1..] == [prefix[|prefix| - 1]] + suffix;
      assert ("." + suffix)[0] == '.';
      assert ([prefix[|prefix| - 1]] + suffix)[0] == prefix[|prefix| - 1];
    }
  }

  /** A wildcard pattern matches a host made of some lower-case prefix and
      its suffix exactly when the prefix is empty or ends at a dot: the
      suffix must sit on a label boundary. */
  lemma WildcardOnLabelBoundary(suffix: string, prefix: string)
    requires |suffix| > 0 && !IsJsWhitespace(suffix[|suffix| - 1])
    requires forall k :: 0 <= k < |suffix| ==> !('A' <= suffix[k] <= 'Z')
    requires forall k :: 0 <= k < |prefix| ==> !('A' <= prefix[k] <= 'Z')
    ensures MatchUrlPattern(WildcardPrefix + suffix, prefix + suffix) <==>
      prefix == [] || prefix[|prefix| - 1] == '.'
  {
    var pattern := WildcardPrefix + suffix;
    assert pattern[0] == '*';
    assert pattern[|pattern| - 1] == suffix[|suffix| - 1];
    NormalPattern(pattern);
    assert pattern[..2] == WildcardPrefix && pattern[2..] == suffix;
    LowerFixed(prefix + suffix);
    EndsWithParts(prefix, suffix);
    if prefix + suffix == suffix {
      assert |prefix| == 0;
    }
  }

  /** Any host under a wildcard suffix matches, whatever the case of its labels. */
  lemma WildcardCoversSubdomains(suffix: string, sub: string)
    requires |suffix| > 0 && !IsJsWhitespace(suffix[|suffix| - 1])
    requires forall k :: 0 <= k < |suffix| ==> !('A' <= suffix[k] <= 'Z')
    ensures MatchUrlPattern(WildcardPrefix + suffix, sub + "." + suffix)
  {
    var lowered := ToLower(sub + ".");
    assert lowered[|lowered| - 1] == '.';
    LowerFixed(suffix);
    ToLowerAppend(sub + ".", suffix);
    HostCaseIgnored(WildcardPrefix + suffix, sub + "." + suffix);
    LowerIsLower(sub + ".");
    WildcardOnLabelBoundary(suffix, lowered);
  }

  /** A plain pattern does not match a subdomain of its host. */
  lemma PlainPatternIsExact(pattern: string, sub: string)
    requires |pattern| > 0 && !IsJsWhitespace(pattern[0]) && !IsJsWhitespace(pattern[|pattern| - 1])
    requires forall k :: 0 <= k < |pattern| ==> !('A' <= pattern[k] <= 'Z')
    requires pattern[0] != '*'
    ensures !MatchUrlPattern(pattern, sub + "." + pattern)
  {
    NormalPattern(pattern);
    assert |ToLower(sub + "." + pattern)| > |pattern|;
  }

  /** `patterns.some(pat => matchUrlPattern(pat, host))`. */
  predicate AnyPatternMatches(patterns: seq<string>, host: string) {
    |patterns| > 0 && (MatchUrlPattern(patterns[0], host) || AnyPatternMatches(patterns[1..], host))
  }

  /** `some` holds exactly when one of the patterns matches. */
  lemma {:induction false} AnyPatternMatchesIff(patterns: seq<string>, host: string)
    ensures AnyPatternMatches(patterns, host) <==>
      exists j :: 0 <= j < |patterns| && MatchUrlPattern(patterns[j], host)
  {
    if |patterns| > 0 {
      AnyPatternMatchesIff(patterns[1..], host);
      if exists j :: 0 <= j < |patterns| && MatchUrlPattern(patterns[j], host) {
        var j :| 0 <= j < |patterns| && MatchUrlPattern(patterns[j], host);
        if j > 0 {
          assert MatchUrlPattern(patterns[1..][j - 1], host);
        }
      }
    }
  }

  predicate PersonaMatches(p: Persona, host: string) {
    AnyPatternMatches(p.urlPatterns, host)
  }

  /** The index of the first true flag from `k` on, or the length when
      there is none. */
  function FirstTrue(flags: seq<bool>, k: nat): (r: nat)
    requires k <= |flags|
    ensures k <= r <= |flags|
    ensures forall j :: k <= j < r ==> !flags[j]
    ensures r < |flags| ==> flags[r]
    decreases |flags| - k
  {
    if k == |flags| then k
    else if flags[k] then k
    else FirstTrue(flags, k + 1)
  }

  /** Which personas have a pattern matching the host, in stored order. */
  function MatchFlags(personas: seq<Persona>, host: string): (r: seq<bool>)
    ensures |r| == |personas|
    ensures forall i :: 0 <= i < |r| ==> r[i] == PersonaMatches(personas[i], host)
  {
    seq(|personas|, i requires 0 <= i < |personas| => PersonaMatches(personas[i], host))
  }

  /** `personas.find(...)`: the first persona in stored order that has a
      matching pattern; none when no persona matches. */
  function FindPersona(personas: seq<Persona>, host: string): (r: Option<Persona>)
    ensures r.None? <==> forall i :: 0 <= i < |personas| ==> !PersonaMatches(personas[i], host)
    ensures r.Some? ==> r.value in personas && PersonaMatches(r.value, host)
  {
    var flags := MatchFlags(personas, host);
    var i := FirstTrue(flags, 0);
    if i == |personas| then None else Some(personas[i])
  }

  lemma FirstTrueIs(flags: seq<bool>, i: nat)
    requires i < |flags| && flags[i]
    requires forall j :: 0 <= j < i ==> !flags[j]
    ensures FirstTrue(flags, 0) == i
  {
  }

  /** The empty host, from a URL that does not parse, selects no persona. */
  lemma EmptyHostNoPersona(personas: seq<Persona>)
    ensures FindPersona(personas, "").None?
  {
    forall i | 0 <= i < |personas|
      ensures !PersonaMatches(personas[i], "")
    {
      AnyPatternMatchesIff(personas[i].urlPatterns, "");
    }
  }

  /** The persona listed first among the matching ones wins, whatever follows it. */
  lemma EarlierPersonaWins(personas: seq<Persona>, host: string, i: nat)
    requires i < |personas| && PersonaMatches(personas[i], host)
    requires forall j :: 0 <= j < i ==> !PersonaMatches(personas[j], host)
    ensures FindPersona(personas, host) == Some(personas[i])
  {
    FirstTrueIs(MatchFlags(personas, host), i);
  }

  /** A wildcard pattern of the first persona covers every subdomain of its suffix. */
  lemma FirstPersonaWildcard(personas: seq<Persona>, j: nat, suffix: string, sub: string)
    requires |personas| > 0 && j < |personas[0].urlPatterns|
    requires personas[0].urlPatterns[j] == WildcardPrefix + suffix
    requires |suffix| > 0 && !IsJsWhitespace(suffix[|suffix| - 1])
    requires forall k :: 0 <= k < |suffix| ==> !('A' <= suffix[k] <= 'Z')
    ensures FindPersona(personas, sub + "." + suffix) == Some(personas[0])
  {
    WildcardCoversSubdomains(suffix, sub);
    FirstPatternPersonaWins(personas, sub + "." + suffix, j);
  }

  /** Every subdomain of github.com gets the code reviewer. */
  lemma GithubSubdomainsGetReviewer(sub: string)
    ensures FindPersona(DefaultPersonas, sub + "." + "github.com") == Some(DefaultPersonas[0])
  {
    var suffix := "github.com";
    assert DefaultPersonas[0].urlPatterns[1] == WildcardPrefix + suffix;
    FirstPersonaWildcard(DefaultPersonas, 1, suffix, sub);
  }

  lemma FirstPatternPersonaWins(personas: seq<Persona>, host: string, j: nat)
    requires |personas| > 0 && j < |personas[0].urlPatterns|
    requires MatchUrlPattern(personas[0].urlPatterns[j], host)
    ensures FindPersona(personas, host) == Some(personas[0])
  {
    AnyPatternMatchesIff(personas[0].urlPatterns, host);
    EarlierPersonaWins(personas, host, 0);
  }

  /** The badge after `checkPersona`: the active persona, and the domain the
      user dismissed the badge for, if any. */
  datatype BadgeState = BadgeState(active: Option<Persona>, dismissedFor: Option<string>)

  /** `checkPersona`. With no tab URL there is no persona. A dismissal is
      forgotten once the tab is on another domain (an empty dismissed domain
      is never forgotten, being falsy); while the tab stays on the dismissed
      domain there is no persona; otherwise the first matching persona. */
  function CheckPersona(personas: seq<Persona>, dismissedFor: Option<string>, tabHost: Option<string>): (r: BadgeState)
    ensures tabHost.None? ==> r == BadgeState(None, dismissedFor)
    ensures tabHost.Some? && dismissedFor == Some(tabHost.value) ==> r == BadgeState(None, dismissedFor)
    ensures tabHost.Some? && dismissedFor != Some(tabHost.value) ==>
      r.active == FindPersona(personas, tabHost.value)
    ensures r.dismissedFor.Some? ==> r.dismissedFor == dismissedFor
    ensures tabHost.Some? && dismissedFor.Some? && dismissedFor.value != "" && dismissedFor.value != tabHost.value ==>
      r.dismissedFor.None?
  {
    match tabHost
    case None => BadgeState(None, dismissedFor)
    case Some(host) =>
      var kept := if dismissedFor.Some? && dismissedFor.value != "" && host != dismissedFor.value then None else dismissedFor;
      if kept == Some(host) then BadgeState(None, kept)
      else BadgeState(FindPersona(personas, host), kept)
  }

  /** Dismissing hides the badge on that domain until the tab leaves it. */
  lemma DismissalLastsOnDomain(personas: seq<Persona>, host: string, other: string)
    requires host != "" && other != host
    ensures CheckPersona(personas, Some(host), Some(host)).active.None?
    ensures CheckPersona(personas, Some(host), Some(other)) == BadgeState(FindPersona(personas, other), None)
  {
  }
}

=== FILE: prompt.dfy ===
/** How the side panel turns what the user typed, the captured context and
    the active persona into one completion message: the query (by action),
    then the persona's style hint, then the context block. */
module Prompt {
  import opened JsText
  import opened RequestBuilder
  import opened Personas
  import opened SlashCommands

  const ChatAction := "chat"

  /** The stored settings; a key that was never saved reads as "". */
  datatype Settings = Settings(serverAddress: string, modelName: string, systemPrompt: string, apiEndpoint: string)

  /** Both the server address and the model name are set. */
  predicate Configured(s: Settings) {
    s.serverAddress != "" && s.modelName != ""
  }

  /** `currentContext.type`: what the captured context text came from. */
  datatype ContextKind = NoContext | SelectionContext | YouTubeContext | PageContext

  /** The `actionPrompts` table: the instruction of each non-chat action. */
  const ActionPrompts: map<string, string> := map[
    "summarize" := "Summarize the following:",
    "professional" := "Make this more professional:",
    "actionItems" := "Generate action items from:",
    "twitterThread" := "Convert to a Twitter thread (280 chars per tweet):",
    "explain" := "Explain this:"
  ]

  /** The instruction each non-chat action puts in front of the text; the
      other actions, chat included, have none. */
  function ActionPrompt(action: string): (r: Option<string>)
    ensures r.Some? <==> action in {"summarize", "professional", "actionItems", "twitterThread", "explain"}
    ensures r.Some? ==> r.value != "" && r.value[|r.value| - 1] == ':'
    ensures r.Some? <==> action in ActionPrompts
    ensures r.Some? ==> r.value == ActionPrompts[action]
  {
    if action == "summarize" then Some("Summarize the following:")
    else if action == "professional" then Some("Make this more professional:")
    else if action == "actionItems" then Some("Generate action items from:")
    else if action == "twitterThread" then Some("Convert to a Twitter thread (280 chars per tweet):")
    else if action == "explain" then Some("Explain this:")
    else None
  }

  /** `actionPrompts[action] || fallback`. */
  function PromptOr(action: string, fallback: string): (r: string)
    ensures ActionPrompt(action).None? ==> r == fallback
    ensures ActionPrompt(action).Some? ==> r == ActionPrompt(action).value
  {
    match ActionPrompt(action)
    case Some(p) => p
    case None => fallback
  }

  /** The query: the user's own words in chat mode or when they accompany a
      context; otherwise the action's instruction, followed by the words when
      there is no context for the instruction to apply to. */
  function Query(action: string, userText: string, selectedText: string): (r: string)
    ensures action == ChatAction ==> r == userText
    ensures action != ChatAction && userText != "" && selectedText != "" ==> r == userText
    ensures action != ChatAction && userText == "" && selectedText != "" ==> r == PromptOr(action, "")
    ensures action != ChatAction && selectedText == "" ==>
      StartsWith(r, PromptOr(action, "")) && EndsWith(r, "\n\n" + userText)
      && |r| == |PromptOr(action, "")| + 2 + |userText|
  {
    if action == ChatAction then userText
    else if userText != "" && selectedText != "" then userText
    else if selectedText != "" then PromptOr(action, userText)
    else PromptOr(action, "") + "\n\n" + userText
  }

  /** The user's words are never dropped from the query, and nothing follows them. */
  lemma QueryEndsWithUserText(action: string, userText: string, selectedText: string)
    ensures EndsWith(Query(action, userText, selectedText), userText)
  {
    var q := Query(action, userText, selectedText);
    if action != ChatAction && selectedText == "" {
      assert q[|q| - |userText|..] == ("\n\n" + userText)[2..];
    }
  }

  /** The query is empty exactly when there are no words and no instruction
      stands in for them: chat mode, or an action without an instruction,
      with only a context to go on. */
  lemma QueryEmptyIff(action: string, userText: string, selectedText: string)
    ensures Query(action, userText, selectedText) == "" <==>
      userText == "" && (action == ChatAction || (selectedText != "" && ActionPrompt(action).None?))
  {
  }

  /** The fixed closing sentence of every style hint. */
  const StyleHintClose := "Apply this style only if relevant to the user's request above.]"

  /** The style hint of the active persona, or nothing. */
  function PersonaNote(persona: Option<Persona>): (r: string)
    ensures persona.None? <==> r == ""
    ensures persona.Some? ==>
      StartsWith(r, "\n\n[Style hint (" + persona.value.name + "): " + persona.value.systemPrompt + " — ")
      && EndsWith(r, "request above.]")
    ensures persona.Some? ==>
      EndsWith(r, StyleHintClose)
      && |r| == |"\n\n[Style hint (" + persona.value.name + "): " + persona.value.systemPrompt + " — "|
                + |StyleHintClose|
  {
    match persona
    case None => ""
    case Some(p) =>
      var head := "\n\n[Style hint (" + p.name + "): " + p.systemPrompt + " — ";
      AppendParts(head, StyleHintClose);
      assert EndsWith(StyleHintClose, "request above.]");
      EndsWithAppend(head, StyleHintClose, "request above.]");
      head + StyleHintClose
  }

  /** How the context block names the context's origin. */
  function ContextLabel(kind: ContextKind): (r: string)
    ensures r == "" <==> kind.NoContext?
    ensures kind.SelectionContext? ==> r == "selected text"
    ensures kind.YouTubeContext? ==> r == "YouTube video transcript"
    ensures kind.PageContext? ==> r == "page content"
  {
    match kind
    case NoContext => ""
    case SelectionContext => "selected text"
    case YouTubeContext => "YouTube video transcript"
    case PageContext => "page content"
  }

  /** The context block: present exactly when there is context text, and
      then it ends with that text verbatim. */
  function ContextBlock(kind: ContextKind, selectedText: string): (r: string)
    ensures r == "" <==> selectedText == ""
    ensures selectedText != "" ==>
      StartsWith(r, "\n\nContext (" + ContextLabel(kind) + "):\n") && EndsWith(r, selectedText)
    ensures selectedText != "" ==> |r| == |"\n\nContext (" + ContextLabel(kind) + "):\n"| + |selectedText|
  {
    if selectedText == "" then ""
    else
      var head := "\n\nContext (" + ContextLabel(kind) + "):\n";
      assert (head + selectedText)[..|head|] == head;
      head + selectedText
  }

  /** The prompt: the query, then the persona's hint, then the context. */
  function BuildPrompt(action: string, userText: string, selectedText: string,
                       persona: Option<Persona>, kind: ContextKind): (r: string)
    ensures StartsWith(r, Query(action, userText, selectedText))
    ensures selectedText != "" ==> EndsWith(r, selectedText)
    ensures persona.None? && selectedText == "" ==> r == Query(action, userText, selectedText)
    ensures |r| == |Query(action, userText, selectedText)| + |PersonaNote(persona)| + |ContextBlock(kind, selectedText)|
  {
    var q := Query(action, userText, selectedText);
    var note := PersonaNote(persona);
    var context := ContextBlock(kind, selectedText);
    ConcatParts(q, note, context);
    EndsWithAppend(q + note, context, selectedText);
    q + note + context
  }

  /** The three parts can be read back off the prompt by their lengths. */
  lemma PromptParts(action: string, userText: string, selectedText: string,
                    persona: Option<Persona>, kind: ContextKind)
    ensures var r := BuildPrompt(action, userText, selectedText, persona, kind);
      var q := |Query(action, userText, selectedText)|;
      var n := |PersonaNote(persona)|;
      r[q..q + n] == PersonaNote(persona) && r[q + n..] == ContextBlock(kind, selectedText)
  {
  }

  /** Words typed alongside a context: the prompt opens with the words and
      closes with the context, whatever the action. */
  lemma WordsThenContext(action: string, userText: string, selectedText: string,
                         persona: Option<Persona>, kind: ContextKind)
    requires userText != "" && selectedText != ""
    ensures StartsWith(BuildPrompt(action, userText, selectedText, persona, kind), userText)
    ensures EndsWith(BuildPrompt(action, userText, selectedText, persona, kind), selectedText)
  {
  }

  /** The action and text a message is sent with: a recognised slash command
      overrides the dropdown's action and replaces the text with what follows
      the command. */
  function Command(userText: string, dropdown: string): (r: SlashMatch)
    ensures ParseSlashCommand(userText).None? ==> r == SlashMatch(dropdown, userText)
    ensures ParseSlashCommand(userText).Some? ==> r == ParseSlashCommand(userText).value
  {
    match ParseSlashCommand(userText)
    case Some(m) => m
    case None => SlashMatch(dropdown, userText)
  }

  /** The text of the user's bubble: the words, else a tag naming the action
      and the context's origin, else a tag for a lone image. */
  function DisplayText(userText: string, selectedText: string, hasImage: bool,
                       action: string, kind: ContextKind): (r: string)
    ensures r == "" <==> userText == "" && selectedText == "" && !hasImage
    ensures userText != "" ==> r == userText
    ensures userText == "" && selectedText != "" ==>
      r == "[" + action + ": " + (if kind.YouTubeContext? then "video" else if kind.PageContext? then "page" else "selection") + "]"
    ensures userText == "" && selectedText == "" && hasImage ==> r == "[Image]"
  {
    if userText != "" then userText
    else if selectedText != "" then
      var origin := match kind
        case YouTubeContext => "video"
        case PageContext => "page"
        case _ => "selection";
      "[" + action + ": " + origin + "]"
    else if hasImage then "[Image]"
    else ""
  }

  /** What pressing send does. */
  datatype SendOutcome =
    | StopRequested
    | Ignored
    | NotConfigured
    | Sent(request: CompletionRequest, display: string)

  /** Nothing to send: blank words, no context and no image. */
  predicate NothingToSend(input: string, selectedText: string, hasImage: bool) {
    IsBlank(input) && selectedText == "" && !hasImage
  }

  /** The message that goes out once the action and text are settled: the
      stored settings as they are, the assembled prompt, and the history
      exactly in chat mode. */
  function Outgoing(settings: Settings, cmd: SlashMatch, selectedText: string, hasImage: bool,
                    persona: Option<Persona>, kind: ContextKind): (r: SendOutcome)
    ensures r.Sent?
    ensures r.request.serverAddress == settings.serverAddress && r.request.modelName == settings.modelName
    ensures r.request.systemPrompt == settings.systemPrompt && r.request.apiEndpoint == settings.apiEndpoint
    ensures r.request.includeHistory <==> cmd.action == ChatAction
    ensures StartsWith(r.request.prompt, Query(cmd.action, cmd.text, selectedText))
    ensures r.request.prompt == BuildPrompt(cmd.action, cmd.text, selectedText, persona, kind)
    ensures r.display == "" <==> cmd.text == "" && selectedText == "" && !hasImage
    ensures r.display == DisplayText(cmd.text, selectedText, hasImage, cmd.action, kind)
  {
    var prompt := BuildPrompt(cmd.action, cmd.text, selectedText, persona, kind);
    Sent(CompletionRequest(settings.serverAddress, settings.modelName, prompt,
                           cmd.action == ChatAction, settings.systemPrompt, settings.apiEndpoint),
         DisplayText(cmd.text, selectedText, hasImage, cmd.action, kind))
  }

  /** `sendMessage`: a press while a reply is streaming asks to stop it; an
      empty composer does nothing; missing settings are reported; otherwise
      the message goes out with the action and text a slash command chose. */
  function SendMessage(generating: bool, input: string, selectedText: string, hasImage: bool,
                       settings: Settings, dropdown: string, persona: Option<Persona>,
                       kind: ContextKind): (r: SendOutcome)
    ensures r.StopRequested? <==> generating
    ensures r.Ignored? <==> !generating && NothingToSend(input, selectedText, hasImage)
    ensures r.NotConfigured? <==>
      !generating && !NothingToSend(input, selectedText, hasImage) && !Configured(settings)
    ensures r.Sent? ==>
      r == Outgoing(settings, Command(Trim(input), dropdown), selectedText, hasImage, persona, kind)
  {
    if generating then StopRequested
    else
      var userText := Trim(input);
      if userText == "" && selectedText == "" && !hasImage then Ignored
      else if !Configured(settings) then NotConfigured
      else Outgoing(settings, Command(userText, dropdown), selectedText, hasImage, persona, kind)
  }

  /** A slash command followed by words decides the action whatever the
      dropdown says, and only the words reach the prompt. */
  lemma SlashCommandOverrides(i: nat, words: string, selectedText: string, hasImage: bool,
                              settings: Settings, dropdown: string, persona: Option<Persona>,
                              kind: ContextKind)
    requires i < |Aliases| && Configured(settings)
    requires |words| > 0 && !IsJsWhitespace(words[|words| - 1])
    ensures var r := SendMessage(false, Aliases[i].cmd + " " + words, selectedText, hasImage,
                                 settings, dropdown, persona, kind);
      r.Sent?
      && (r.request.includeHistory <==> Aliases[i].action == ChatAction)
      && r.request.prompt == BuildPrompt(Aliases[i].action, Trim(words), selectedText, persona, kind)
  {
    var cmd := Aliases[i].cmd;
    var line := cmd + " " + words;
    AliasesAreLowerSlash();
    CommandLineTrimmed(cmd, words);
    CommandThenText(i, words);
    assert line[|line| - 1] == words[|words| - 1];
    assert Command(Trim(line), dropdown) == SlashMatch(Aliases[i].action, Trim(words));
  }

  /** A bare `/chat` with nothing else on the panel sends an empty prompt,
      and the user's bubble has no text. */
  lemma BareChatSendsEmptyPrompt(i: nat, settings: Settings, dropdown: string, kind: ContextKind)
    requires i < |Aliases| && Aliases[i].action == ChatAction
    requires Configured(settings)
    ensures var r := SendMessage(false, Aliases[i].cmd, "", false, settings, dropdown, None, kind);
      r.Sent? && r.request.prompt == "" && r.request.includeHistory && r.display == ""
  {
    var cmd := Aliases[i].cmd;
    AliasesAreWords();
    AliasesAreLowerSlash();
    TrimFixed(cmd);
    BareCommand(i);
    assert Command(Trim(cmd), dropdown) == SlashMatch(ChatAction, "");
  }

  /** Text that does not start with a slash is never a command, so the
      dropdown's action is used and the words are sent as typed (trimmed). */
  lemma PlainTextUsesDropdown(userText: string, dropdown: string)
    requires userText == [] || userText[0] != '/'
    requires userText == [] || (!IsJsWhitespace(userText[0]) && !IsJsWhitespace(userText[|userText| - 1]))
    ensures Command(userText, dropdown) == SlashMatch(dropdown, userText)
  {
    TrimFixed(userText);
    NoSlashNoCommand(userText);
  }

  /** Typing plain words in chat mode, with no context and no persona, sends
      exactly the trimmed words and asks for the history. */
  lemma ChatSendsWordsVerbatim(input: string, settings: Settings, kind: ContextKind)
    requires Configured(settings) && !IsBlank(input)
    requires Trim(input)[0] != '/'
    ensures var r := SendMessage(false, input, "", false, settings, ChatAction, None, kind);
      r.Sent? && r.request.prompt == Trim(input) && r.request.includeHistory
  {
    TrimIdempotent(input);
    PlainTextUsesDropdown(Trim(input), ChatAction);
  }
}

=== FILE: relay.dfy ===
/** The background service worker: the message dispatcher and the lifecycle of
    one streaming completion. A completion is split at its first `await`:
    `Begin` is the synchronous part (controller installed, request built from
    the history as it is then), `Conclude` is everything after the server
    answered (events broadcast, history updated from the history as it is
    then, controller cleared). The network is a parameter: the outcome of the
    fetch and the reads it delivered. */
module Relay {
  import opened JsText
  import opened JsonValue
  import opened History
  import opened RequestBuilder
  import opened StreamDecoder

  const AbortErrorName := "AbortError"

  /** The worker's state: the history store, the id of the request whose
      AbortController is current (if any), and the number of requests begun
      so far, which names the next controller. */
  datatype RelayState = RelayState(history: Store, controller: Option<nat>, issued: nat)

  /** A thrown JavaScript error, reduced to the two properties the relay reads. */
  datatype JsError = JsError(name: string, message: string)

  /** How the read loop ended: `done` was reported, or a read threw. */
  datatype ReadEnd = Done | Threw(error: JsError)

  /** What the fetch produced: a rejection, or a response with its status,
      the decoded text of each read, and how the reading ended. */
  datatype FetchOutcome =
    | FetchRejected(error: JsError)
    | Response(status: int, statusText: string, received: seq<string>, end: ReadEnd)

  /** The broadcast messages. */
  datatype Event =
    | StreamChunk(content: Json)
    | StreamEnd
    | StreamError(error: string)

  /** The messages the worker handles; anything else is ignored. */
  datatype Message =
    | ChatCompletion(request: CompletionRequest)
    | StopGeneration
    | ClearHistory
    | AddToHistory(role: string, content: string)
    | Unknown

  const Initial := RelayState(map[], None, 0)

  predicate Terminal(e: Event) {
    e.StreamEnd? || e.StreamError?
  }

  /** `response.ok`. */
  predicate IsOk(status: int) {
    200 <= status <= 299
  }

  function StatusMessage(status: int, statusText: string): string {
    "Server responded with " + Decimal(status) + ": " + statusText
  }

  /** The catch block: an abort ends the stream quietly, any other error is reported. */
  function CaughtEvent(e: JsError): (r: Event)
    ensures Terminal(r)
    ensures r == StreamEnd <==> e.name == AbortErrorName
    ensures r.StreamError? ==> r.error == e.message
  {
    if e.name == AbortErrorName then StreamEnd else StreamError(e.message)
  }

  function Chunks(contents: seq<Json>): (r: seq<Event>)
    ensures |r| == |contents|
    ensures forall i :: 0 <= i < |r| ==> r[i] == StreamChunk(contents[i])
  {
    seq(|contents|, i requires 0 <= i < |contents| => StreamChunk(contents[i]))
  }

  /** A well-formed completion trace: chunks, then exactly one terminal event. */
  predicate WellFormedTrace(events: seq<Event>) {
    && |events| >= 1
    && Terminal(events[|events| - 1])
    && forall i :: 0 <= i < |events| - 1 ==> events[i].StreamChunk?
  }

  datatype Started = Started(state: RelayState, id: nat, request: HttpRequest)

  /** The synchronous start of `handleChatCompletion`: a new controller
      replaces whatever was current, and the request is built from the
      default history as it stands now. */
  function Begin(s: RelayState, req: CompletionRequest): (r: Started)
    ensures r.state.controller == Some(r.id)
    ensures r.id == s.issued && r.state.issued == s.issued + 1
    ensures r.state.history == s.history
    ensures r.request.url == StripTrailingSlashes(req.serverAddress)
      + (if req.apiEndpoint == ResponsesEndpoint then ResponsesPath else ChatPath)
    ensures r.request.body.ChatBody? ==>
      r.request.body.messages == ChatMessages(req.systemPrompt, req.includeHistory, Get(s.history, DefaultKey), req.prompt)
  {
    Started(s.(controller := Some(s.issued), issued := s.issued + 1), s.issued,
            Build(req, Get(s.history, DefaultKey)))
  }

  datatype Completed = Completed(state: RelayState, events: seq<Event>)

  /** The exchange the completion records: the prompt and the accumulated response. */
  function Recorded(req: CompletionRequest, full: string): Exchange {
    Exchange(req.prompt, full)
  }

  /** Whether a naturally ended stream saves its exchange: only when history
      was asked for and the accumulated response is non-empty. */
  predicate Saves(req: CompletionRequest, full: string) {
    req.includeHistory && full != ""
  }

  /** The outcomes after which the exchange is saved: a 2xx response read
      to its end whose accumulated text is non-empty, with history asked for. */
  predicate SavesOn(req: CompletionRequest, outcome: FetchOutcome, parse: Parser) {
    && outcome.Response? && IsOk(outcome.status) && outcome.end.Done?
    && Saves(req, Concat(DecodeReads(outcome.received, parse)))
  }

  /** Chunks followed by one terminal event form a well-formed trace. */
  lemma ChunksThenTerminal(contents: seq<Json>, last: Event)
    requires Terminal(last)
    ensures var t := Chunks(contents) + [last];
      WellFormedTrace(t) && t[..|t| - 1] == Chunks(contents) && t[|t| - 1] == last
  {
    var t := Chunks(contents) + [last];
    assert t[..|t| - 1] == Chunks(contents);
  }

  /** The events broadcast after the fetch settled. */
  function ConcludeEvents(outcome: FetchOutcome, parse: Parser): (r: seq<Event>)
    ensures WellFormedTrace(r)
    ensures outcome.FetchRejected? ==> r == [CaughtEvent(outcome.error)]
    ensures outcome.Response? && !IsOk(outcome.status) ==>
      r == [StreamError(StatusMessage(outcome.status, outcome.statusText))]
    ensures outcome.Response? && IsOk(outcome.status) ==>
      r[..|r| - 1] == Chunks(DecodeReads(outcome.received, parse))
    ensures r[|r| - 1] == StreamEnd <==>
      || (outcome.FetchRejected? && outcome.error.name == AbortErrorName)
      || (outcome.Response? && IsOk(outcome.status) &&
          (outcome.end.Done? || outcome.end.error.name == AbortErrorName))
  {
    match outcome
    case FetchRejected(e) => [CaughtEvent(e)]
    case Response(status, statusText, received, end) =>
      if !IsOk(status) then [StreamError(StatusMessage(status, statusText))]
      else
        var contents := DecodeReads(received, parse);
        var last := if end.Done? then StreamEnd else CaughtEvent(end.error);
        ChunksThenTerminal(contents, last);
        Chunks(contents) + [last]
  }

  /** The history after the fetch settled: changed only by a saved exchange,
      which is pushed onto the default history as it is at that moment. */
  function ConcludeHistory(history: Store, req: CompletionRequest, outcome: FetchOutcome, parse: Parser): (r: Store)
    ensures r != history ==> SavesOn(req, outcome, parse)
    ensures SavesOn(req, outcome, parse) ==>
      r == RecordExchange(history, Recorded(req, Concat(DecodeReads(outcome.received, parse))))
    ensures Bounded(history) ==> Bounded(r)
  {
    if SavesOn(req, outcome, parse) then
      RecordExchange(history, Recorded(req, Concat(DecodeReads(outcome.received, parse))))
    else history
  }

  /** Everything after the fetch settled, including the `finally` block,
      which clears the controller whichever request it belongs to. */
  function Conclude(s: RelayState, req: CompletionRequest, outcome: FetchOutcome, parse: Parser): (r: Completed)
    ensures r.state.controller == None && r.state.issued == s.issued
    ensures WellFormedTrace(r.events)
    ensures r.state.history != s.history ==> SavesOn(req, outcome, parse)
    ensures Bounded(s.history) ==> Bounded(r.state.history)
  {
    Completed(s.(controller := None, history := ConcludeHistory(s.history, req, outcome, parse)),
              ConcludeEvents(outcome, parse))
  }

  datatype Handled = Handled(state: RelayState, events: seq<Event>, started: Option<Started>)

  /** `stopGeneration`: abort and forget the current controller and announce
      the end; with no current controller nothing happens. */
  function Stop(s: RelayState): (r: Handled)
    ensures r.state.controller == None && r.state.history == s.history
    ensures r.events == [] <==> s.controller.None?
    ensures s.controller.Some? ==> r.events == [StreamEnd]
    ensures s.controller.None? ==> r.state == s
  {
    if s.controller.Some? then Handled(s.(controller := None), [StreamEnd], None)
    else Handled(s, [], None)
  }

  /** The message listener. A chat completion returns its `Started` record;
      the rest of it happens in `Conclude`. */
  function Dispatch(s: RelayState, m: Message): (r: Handled)
    ensures m.ChatCompletion? <==> r.started.Some?
    ensures r.started.Some? ==> r.state == r.started.value.state
    ensures m.ChatCompletion? ==> r.started == Some(Begin(s, m.request)) && r.events == []
    ensures m.StopGeneration? ==> r == Stop(s)
    ensures !m.ChatCompletion? && !m.StopGeneration? ==> r.events == [] && r.state.controller == s.controller
    ensures m.ClearHistory? ==> forall k :: Get(r.state.history, k) == []
    ensures m.AddToHistory? ==>
      Get(r.state.history, DefaultKey) == PushTurn(Get(s.history, DefaultKey), Turn(m.role, m.content))
    ensures m.Unknown? ==> r.state == s
    ensures Bounded(s.history) ==> Bounded(r.state.history)
  {
    match m
    case ChatCompletion(req) =>
      var st := Begin(s, req);
      Handled(st.state, [], Some(st))
    case StopGeneration => Stop(s)
    case ClearHistory => Handled(s.(history := ClearAll(s.history)), [], None)
    case AddToHistory(role, content) => Handled(s.(history := AddTurn(s.history, Turn(role, content))), [], None)
    case Unknown => Handled(s, [], None)
  }

  /** A non-2xx status short-circuits: one error event naming the status, no
      chunks, and the history is untouched whatever the body held. */
  lemma StatusErrorShortCircuits(s: RelayState, req: CompletionRequest, status: int, text: string,
                                 received: seq<string>, end: ReadEnd, parse: Parser)
    requires !IsOk(status)
    ensures var r := Conclude(s, req, Response(status, text, received, end), parse);
      && r.events == [StreamError("Server responded with " + Decimal(status) + ": " + text)]
      && r.state.history == s.history
  {
  }

  /** Stopping while a request is in flight yields two `streamEnd` events:
      one from the stop handler, one from the aborted fetch's catch block. */
  lemma StopThenAbortEndsTwice(s: RelayState, req: CompletionRequest, abort: JsError, parse: Parser)
    requires abort.name == AbortErrorName
    ensures var st := Begin(s, req);
      var stopped := Stop(st.state);
      var done := Conclude(stopped.state, req, FetchRejected(abort), parse);
      stopped.events + done.events == [StreamEnd, StreamEnd]
  {
  }

  /** An abort mid-stream keeps the chunks already sent and ends quietly,
      but never saves the exchange. */
  lemma AbortMidStreamSavesNothing(s: RelayState, req: CompletionRequest, status: int, text: string,
                                   received: seq<string>, abort: JsError, parse: Parser)
    requires IsOk(status) && abort.name == AbortErrorName
    ensures var r := Conclude(s, req, Response(status, text, received, Threw(abort)), parse);
      && r.events == Chunks(DecodeReads(received, parse)) + [StreamEnd]
      && r.state.history == s.history
  {
  }

  /** The `finally` block of an older request clears the controller of a
      newer one, after which a stop request finds nothing to abort. */
  lemma OlderRequestOrphansNewer(s: RelayState, a: CompletionRequest, b: CompletionRequest,
                                 outcome: FetchOutcome, parse: Parser)
    ensures var first := Begin(s, a);
      var second := Begin(first.state, b);
      var concluded := Conclude(second.state, a, outcome, parse);
      && second.state.controller == Some(second.id)
      && first.id != second.id
      && concluded.state.controller == None
      && Stop(concluded.state).events == []
  {
  }

  /** A response whose every chunk coerces to the empty string, such as `[]`,
      is broadcast but not saved. */
  lemma EmptyResponseNotSaved(s: RelayState, req: CompletionRequest, status: int, text: string,
                              received: seq<string>, parse: Parser)
    requires IsOk(status)
    requires Concat(DecodeReads(received, parse)) == ""
    ensures Conclude(s, req, Response(status, text, received, Done), parse).state.history == s.history
  {
  }

  /** Two overlapping requests that both ask for history: the second was
      built without the first's exchange, yet both exchanges are saved,
      because the save reads the history when the stream ends. */
  lemma OverlappingRequestsBothSaved(a: CompletionRequest, b: CompletionRequest,
                                     oa: FetchOutcome, ob: FetchOutcome, parse: Parser)
    requires a.includeHistory && b.includeHistory
    requires oa.Response? && IsOk(oa.status) && oa.end.Done?
    requires ob.Response? && IsOk(ob.status) && ob.end.Done?
    ensures Get(Begin(Begin(Initial, a).state, b).state.history, DefaultKey) == []
    ensures Concat(DecodeReads(oa.received, parse)) != "" && Concat(DecodeReads(ob.received, parse)) != "" ==>
      var first := Begin(Initial, a);
      var second := Begin(first.state, b);
      var doneA := Conclude(second.state, a, oa, parse);
      var doneB := Conclude(doneA.state, b, ob, parse);
      Get(doneB.state.history, DefaultKey)
         == Turns(Recorded(a, Concat(DecodeReads(oa.received, parse))))
          + Turns(Recorded(b, Concat(DecodeReads(ob.received, parse))))
  {
    var ea := Recorded(a, Concat(DecodeReads(oa.received, parse)));
    var eb := Recorded(b, Concat(DecodeReads(ob.received, parse)));
    assert [] + Turns(ea) == Turns(ea);
  }
}

=== FILE: request_builder.dfy ===
/** The request-building half of `handleChatCompletion`: the endpoint URL and
    the JSON body for the two wire shapes (chat completions and responses). */
module RequestBuilder {
  import opened JsText
  import opened History

  const ResponsesPath := "/v1/responses"
  const ChatPath := "/v1/chat/completions"
  const ResponsesEndpoint := "responses"

  /** The `chatCompletion` message the side panel or options page sends.
      A missing `systemPrompt` or `apiEndpoint` is the empty string here;
      both behave like an absent value in every test the relay makes. */
  datatype CompletionRequest = CompletionRequest(
    serverAddress: string,
    modelName: string,
    prompt: string,
    includeHistory: bool,
    systemPrompt: string,
    apiEndpoint: string)

  /** The JSON body; both shapes also carry `stream: true`. */
  datatype Body =
    | ResponsesBody(model: string, input: string)
    | ChatBody(model: string, messages: seq<Turn>)

  datatype HttpRequest = HttpRequest(url: string, body: Body)

  /** `replace(/\/+$/, '')`: the longest prefix that does not end in '/',
      after which only slashes follow. */
  function StripTrailingSlashes(s: string): (r: string)
    ensures |r| <= |s| && r == s[..|r|]
    ensures forall k :: |r| <= k < |s| ==> s[k] == '/'
    ensures r == [] || r[|r| - 1] != '/'
  {
    if |s| > 0 && s[|s| - 1] == '/' then StripTrailingSlashes(s[..|s| - 1]) else s
  }

  /** `systemPrompt && systemPrompt.trim()` as a condition. */
  predicate HasSystemPrompt(systemPrompt: string) {
    !IsBlank(systemPrompt)
  }

  /** The responses-shape `input`: the prompt, preceded by the trimmed system
      prompt and a blank line when there is a non-blank system prompt. */
  function ResponsesInput(systemPrompt: string, prompt: string): (r: string)
    ensures EndsWith(r, prompt)
    ensures !HasSystemPrompt(systemPrompt) ==> r == prompt
    ensures HasSystemPrompt(systemPrompt) ==>
      StartsWith(r, Trim(systemPrompt) + "\n\n") && |r| == |Trim(systemPrompt)| + 2 + |prompt|
  {
    if HasSystemPrompt(systemPrompt) then Trim(systemPrompt) + "\n\n" + prompt else prompt
  }

  /** The chat-shape `messages`: optional system turn, then the stored history
      when asked for, then the new user turn. */
  function ChatMessages(systemPrompt: string, includeHistory: bool, history: seq<Turn>, prompt: string): (r: seq<Turn>)
    ensures |r| == (if HasSystemPrompt(systemPrompt) then 1 else 0)
                 + (if includeHistory then |history| else 0) + 1
    ensures r[|r| - 1] == Turn(UserRole, prompt)
    ensures HasSystemPrompt(systemPrompt) ==> r[0] == Turn(SystemRole, Trim(systemPrompt))
    ensures includeHistory ==>
      var first := if HasSystemPrompt(systemPrompt) then 1 else 0;
      r[first..first + |history|] == history
  {
    var system := if HasSystemPrompt(systemPrompt) then [Turn(SystemRole, Trim(systemPrompt))] else [];
    var prior := if includeHistory then history else [];
    system + prior + [Turn(UserRole, prompt)]
  }

  /** Build the request from the message and the stored default history. */
  function Build(req: CompletionRequest, history: seq<Turn>): (r: HttpRequest)
    ensures StartsWith(r.url, StripTrailingSlashes(req.serverAddress))
    ensures r.body.model == req.modelName
    ensures r.body.ResponsesBody? <==> req.apiEndpoint == ResponsesEndpoint
    ensures r.body.ResponsesBody? ==> r.body.input == ResponsesInput(req.systemPrompt, req.prompt)
    ensures r.body.ChatBody? ==>
      r.body.messages == ChatMessages(req.systemPrompt, req.includeHistory, history, req.prompt)
  {
    var base := StripTrailingSlashes(req.serverAddress);
    if req.apiEndpoint == ResponsesEndpoint then
      HttpRequest(base + ResponsesPath, ResponsesBody(req.modelName, ResponsesInput(req.systemPrompt, req.prompt)))
    else
      HttpRequest(base + ChatPath, ChatBody(req.modelName, ChatMessages(req.systemPrompt, req.includeHistory, history, req.prompt)))
  }

  /** The endpoint is the responses path exactly when the request asks for
      the responses API, and the chat-completions path otherwise. */
  lemma EndpointChoice(req: CompletionRequest, history: seq<Turn>)
    ensures var base := StripTrailingSlashes(req.serverAddress);
      && (Build(req, history).url == base + ResponsesPath <==> req.apiEndpoint == ResponsesEndpoint)
      && (Build(req, history).url == base + ChatPath <==> req.apiEndpoint != ResponsesEndpoint)
  {
    var base := StripTrailingSlashes(req.serverAddress);
    if req.apiEndpoint == ResponsesEndpoint {
      assert (base + ResponsesPath)[|base| + 4] == 'r';
      assert (base + ChatPath)[|base| + 4] == 'c';
    } else {
      assert |base + ResponsesPath| != |base + ChatPath|;
    }
  }

  /** Stripping is complete: no slash is left at the end, and stripping again changes nothing. */
  lemma StripIdempotent(s: string)
    ensures StripTrailingSlashes(StripTrailingSlashes(s)) == StripTrailingSlashes(s)
  {
  }

  /** Trailing slashes in the configured address never reach the URL. */
  lemma {:induction false} SlashesIgnored(s: string, n: nat)
    ensures StripTrailingSlashes(s + seq(n, _ => '/')) == StripTrailingSlashes(s)
  {
    if n > 0 {
      var t := s + seq(n, _ => '/');
      assert t[..|t| - 1] == s + seq(n - 1, _ => '/');
      SlashesIgnored(s, n - 1);
    } else {
      assert s + seq(n, _ => '/') == s;
    }
  }

  /** Scenario: chat shape, system prompt "Be terse.", prompt "Hi", no history. */
  lemma ChatScenario(server: string, model: string, history: seq<Turn>)
    ensures Build(CompletionRequest(server, model, "Hi", false, "Be terse.", "chat"), history).body
         == ChatBody(model, [Turn(SystemRole, "Be terse."), Turn(UserRole, "Hi")])
  {
    var sys := "Be terse.";
    assert !IsJsWhitespace(sys[0]) && !IsJsWhitespace(sys[|sys| - 1]);
    assert TrimStart(sys) == sys;
    assert TrimEnd(sys) == sys;
    assert HasSystemPrompt(sys);
  }

  /** Scenario: responses shape with an empty system prompt sends the prompt alone. */
  lemma ResponsesScenario(server: string, model: string, history: seq<Turn>)
    ensures Build(CompletionRequest(server, model, "Hi", false, "", ResponsesEndpoint), history).body
         == ResponsesBody(model, "Hi")
  {
  }
}

=== FILE: slash_commands.dfy ===
/** The side panel's slash commands: the alias table the message parser
    scans, the definitions the autocomplete dropdown lists, the dropdown's
    filter, and its cyclic keyboard navigation. */
module SlashCommands {
  import opened JsText

  /** One entry of the parser's alias table. */
  datatype Alias = Alias(cmd: string, action: string)

  /** One entry of the dropdown's definitions. */
  datatype CommandDef = CommandDef(cmd: string, action: string, desc: string)

  /** The alias table, in the order the parser tries it. */
  const Aliases: seq<Alias> := [
    Alias("/summarize", "summarize"),
    Alias("/summary", "summarize"),
    Alias("/professional", "professional"),
    Alias("/pro", "professional"),
    Alias("/actions", "actionItems"),
    Alias("/action", "actionItems"),
    Alias("/todos", "actionItems"),
    Alias("/twitter", "twitterThread"),
    Alias("/thread", "twitterThread"),
    Alias("/tweet", "twitterThread"),
    Alias("/explain", "explain"),
    Alias("/eli5", "explain"),
    Alias("/chat", "chat")
  ]

  /** The dropdown's definitions, in display order. */
  const CommandDefs: seq<CommandDef> := [
    CommandDef("/summarize", "summarize", "Summarize text"),
    CommandDef("/explain", "explain", "Explain in simple terms"),
    CommandDef("/professional", "professional", "Make text professional"),
    CommandDef("/actions", "actionItems", "Extract action items"),
    CommandDef("/twitter", "twitterThread", "Convert to tweet thread"),
    CommandDef("/chat", "chat", "Regular conversation")
  ]

  /** The lowered input names `cmd`: it is the command, or the command
      followed by a space. */
  predicate Names(lowered: string, cmd: string) {
    StartsWith(lowered, cmd + " ") || lowered == cmd
  }

  /** A recognised command: the action and the text after the command. */
  datatype SlashMatch = SlashMatch(action: string, text: string)

  /** What the parser returns for a trimmed input once `aliases[i]` matched:
      the input with the command's length cut off, trimmed again, its case kept. */
  function Remainder(trimmed: string, cmd: string): string
    requires |cmd| <= |trimmed|
  {
    Trim(trimmed[|cmd|..])
  }

  /** The index of the first alias from `k` on that the lowered input
      names, or the table's length when there is none. */
  function FirstNamed(aliases: seq<Alias>, lowered: string, k: nat): (r: nat)
    requires k <= |aliases|
    ensures k <= r <= |aliases|
    ensures forall j :: k <= j < r ==> !Names(lowered, aliases[j].cmd)
    ensures r < |aliases| ==> Names(lowered, aliases[r].cmd)
    decreases |aliases| - k
  {
    if k == |aliases| then k
    else if Names(lowered, aliases[k].cmd) then k
    else FirstNamed(aliases, lowered, k + 1)
  }

  /** `parseSlashCommand`: the trimmed input, lowered, is matched against
      the alias table in order; the first alias it names gives the action and
      the text after the command. */
  function ParseSlashCommand(text: string): (r: Option<SlashMatch>)
    ensures r.None? <==> forall i :: 0 <= i < |Aliases| ==> !Names(ToLower(Trim(text)), Aliases[i].cmd)
  {
    var trimmed := Trim(text);
    var i := FirstNamed(Aliases, ToLower(trimmed), 0);
    if i == |Aliases| then None
    else Some(SlashMatch(Aliases[i].action, Remainder(trimmed, Aliases[i].cmd)))
  }

  lemma AliasesHaveNoSpace()
    ensures forall i :: 0 <= i < |Aliases| ==> ' ' !in Aliases[i].cmd
  {
  }

  /** The table's keys are distinct, as an object literal's keys are. */
  lemma AliasesDistinct()
    ensures forall i, j :: 0 <= i < j < |Aliases| ==> Aliases[i].cmd != Aliases[j].cmd
  {
  }

  /** A named command is a prefix of the input ... */
  lemma NamedIsPrefix(lowered: string, cmd: string)
    requires Names(lowered, cmd)
    ensures |cmd| <= |lowered| && lowered[..|cmd|] == cmd
  {
    if lowered != cmd {
      assert (cmd + " ")[..|cmd|] == cmd;
    }
  }

  /** ... and anything after it starts with a space. */
  lemma NamedThenSpace(lowered: string, cmd: string)
    requires Names(lowered, cmd) && |lowered| > |cmd|
    ensures lowered[|cmd|] == ' '
  {
    assert (cmd + " ")[|cmd|] == ' ';
  }

  /** Because no command holds a space, an input names at most one command. */
  lemma NamesUnique(lowered: string, c1: string, c2: string)
    requires ' ' !in c1 && ' ' !in c2
    requires Names(lowered, c1) && Names(lowered, c2)
    ensures c1 == c2
  {
    NamedIsPrefix(lowered, c1);
    NamedIsPrefix(lowered, c2);
    if |c1| < |c2| {
      NamedThenSpace(lowered, c1);
    } else if |c2| < |c1| {
      NamedThenSpace(lowered, c2);
    }
  }

  /** In a table of distinct commands without spaces, the first alias an
      input names is the only one it names. */
  lemma FirstNamedIsOnly(aliases: seq<Alias>, lowered: string, i: nat)
    requires forall j :: 0 <= j < |aliases| ==> ' ' !in aliases[j].cmd
    requires forall j, k :: 0 <= j < k < |aliases| ==> aliases[j].cmd != aliases[k].cmd
    requires i < |aliases| && Names(lowered, aliases[i].cmd)
    ensures FirstNamed(aliases, lowered, 0) == i
  {
    var k := FirstNamed(aliases, lowered, 0);
    if k < i {
      NamesUnique(lowered, aliases[k].cmd, aliases[i].cmd);
      assert false;
    }
  }

  /** The table order does not matter: whichever alias the input names is
      the one the parser reports, with the text after it trimmed and its
      case kept. */
  lemma ParseFinds(text: string, i: nat)
    requires i < |Aliases| && Names(ToLower(Trim(text)), Aliases[i].cmd)
    ensures ParseSlashCommand(text) == Some(SlashMatch(Aliases[i].action, Remainder(Trim(text), Aliases[i].cmd)))
  {
    AliasesHaveNoSpace();
    AliasesDistinct();
    FirstNamedIsOnly(Aliases, ToLower(Trim(text)), i);
  }

  /** Every command is lower case and starts with '/'. */
  lemma AliasesAreLowerSlash()
    ensures forall i :: 0 <= i < |Aliases| ==> |Aliases[i].cmd| > 1 && Aliases[i].cmd[0] == '/'
    ensures forall i, k :: 0 <= i < |Aliases| && 0 <= k < |Aliases[i].cmd| ==> !('A' <= Aliases[i].cmd[k] <= 'Z')
  {
  }

  lemma CommandLineTrimmed(cmd: string, rest: string)
    requires |cmd| > 0 && cmd[0] == '/'
    requires |rest| > 0 && !IsJsWhitespace(rest[|rest| - 1])
    ensures Trim(cmd + " " + rest) == cmd + " " + rest
  {
    var t := cmd + " " + rest;
    assert t[0] == '/';
    assert t[|t| - 1] == rest[|rest| - 1];
    TrimFixed(t);
  }

  lemma CommandLineNames(cmd: string, rest: string)
    requires forall k :: 0 <= k < |cmd| ==> !('A' <= cmd[k] <= 'Z')
    ensures Names(ToLower(cmd + " " + rest), cmd)
  {
    LowerFixed(cmd + " ");
    ToLowerAppend(cmd + " ", rest);
    assert ToLower(cmd + " " + rest)[..|cmd| + 1] == cmd + " ";
  }

  lemma CommandLineRemainder(cmd: string, rest: string)
    ensures Remainder(cmd + " " + rest, cmd) == Trim(rest)
  {
    assert (cmd + " " + rest)[|cmd|..] == [' '] + rest;
    TrimAfterBlank(' ', rest);
  }

  /** A command, a space and any text: the command's action, with the text
      trimmed and its case kept. */
  lemma CommandThenText(i: nat, rest: string)
    requires i < |Aliases|
    requires |rest| > 0 && !IsJsWhitespace(rest[|rest| - 1])
    ensures ParseSlashCommand(Aliases[i].cmd + " " + rest) == Some(SlashMatch(Aliases[i].action, Trim(rest)))
  {
    var cmd := Aliases[i].cmd;
    AliasesAreLowerSlash();
    CommandLineTrimmed(cmd, rest);
    CommandLineNames(cmd, rest);
    CommandLineRemainder(cmd, rest);
    ParseFinds(cmd + " " + rest, i);
  }

  /** A bare command: its action and empty text. */
  lemma BareCommand(i: nat)
    requires i < |Aliases|
    ensures ParseSlashCommand(Aliases[i].cmd) == Some(SlashMatch(Aliases[i].action, ""))
  {
    var cmd := Aliases[i].cmd;
    AliasesAreLowerSlash();
    TrimFixed(cmd);
    LowerFixed(cmd);
    ParseFinds(cmd, i);
    assert cmd[|cmd|..] == [];
    TrimFixed([]);
  }

  /** No command holds whitespace of any kind. */
  lemma AliasesAreWords()
    ensures forall i, k :: 0 <= i < |Aliases| && 0 <= k < |Aliases[i].cmd| ==> !IsJsWhitespace(Aliases[i].cmd[k])
  {
  }

  /** An input naming `cmd` starts with `cmd`'s first character. */
  lemma NamedStartsAlike(lowered: string, cmd: string)
    requires |cmd| > 0 && Names(lowered, cmd)
    ensures |lowered| > 0 && lowered[0] == cmd[0]
  {
    NamedIsPrefix(lowered, cmd);
  }

  /** Text whose trimmed form does not start with '/' is never a command. */
  lemma NoSlashNoCommand(text: string)
    requires Trim(text) == [] || Trim(text)[0] != '/'
    ensures ParseSlashCommand(text).None?
  {
    var lowered := ToLower(Trim(text));
    AliasesAreLowerSlash();
    forall i | 0 <= i < |Aliases|
      ensures !Names(lowered, Aliases[i].cmd)
    {
      var cmd := Aliases[i].cmd;
      if Names(lowered, cmd) {
        NamedStartsAlike(lowered, cmd);
      }
    }
  }

  /** Matching ignores case: lowering the input selects the same action, or none. */
  lemma CaseIgnored(text: string)
    ensures ParseSlashCommand(ToLower(text)).None? <==> ParseSlashCommand(text).None?
    ensures ParseSlashCommand(text).Some? ==> ParseSlashCommand(ToLower(text)).value.action == ParseSlashCommand(text).value.action
  {
    TrimLower(text);
    ToLowerIdempotent(Trim(text));
  }

  lemma NoSpaceNamesExactly(lowered: string, cmd: string)
    requires ' ' !in lowered && Names(lowered, cmd)
    ensures lowered == cmd
  {
    if lowered != cmd {
      NamedThenSpace(lowered, cmd);
    }
  }

  /** An input without a space must equal a command exactly to be recognised:
      a longer word that merely starts with a command is not one. */
  lemma WordMustBeExact(text: string)
    requires ' ' !in ToLower(Trim(text))
    ensures ParseSlashCommand(text).Some? <==>
      exists i :: 0 <= i < |Aliases| && ToLower(Trim(text)) == Aliases[i].cmd
  {
    var lowered := ToLower(Trim(text));
    forall i | 0 <= i < |Aliases| && Names(lowered, Aliases[i].cmd)
      ensures lowered == Aliases[i].cmd
    {
      NoSpaceNamesExactly(lowered, Aliases[i].cmd);
    }
  }

  /** The dropdown's filter: the definitions whose command starts with the
      filter, case-insensitively, in definition order. */
  function FilterCommands(defs: seq<CommandDef>, filter: string): (r: seq<CommandDef>)
    ensures |r| <= |defs|
  {
    if |defs| == 0 then [] else Kept(defs[0], filter) + FilterCommands(defs[1..], filter)
  }

  /** The filter keeps exactly the definitions that match: each one it keeps
      matches, and none that matches is dropped. */
  lemma {:induction false} FilterContents(defs: seq<CommandDef>, filter: string)
    ensures forall i :: 0 <= i < |FilterCommands(defs, filter)| ==>
      FilterCommands(defs, filter)[i] in defs && StartsWith(ToLower(FilterCommands(defs, filter)[i].cmd), ToLower(filter))
    ensures forall d :: d in defs && StartsWith(ToLower(d.cmd), ToLower(filter)) ==> d in FilterCommands(defs, filter)
  {
    if |defs| > 0 {
      FilterContents(defs[1..], filter);
      var first := Kept(defs[0], filter);
      var rest := FilterCommands(defs[1..], filter);
      assert FilterCommands(defs, filter) == first + rest;
      assert forall d :: d in defs && d != defs[0] ==> d in defs[1..];
      assert forall d :: d in defs[1..] ==> d in defs;
    }
  }

  /** A definition on its own, kept when its command starts with the filter. */
  function Kept(d: CommandDef, filter: string): (r: seq<CommandDef>)
    ensures r == [d] <==> StartsWith(ToLower(d.cmd), ToLower(filter))
    ensures r == [] <==> !StartsWith(ToLower(d.cmd), ToLower(filter))
  {
    if StartsWith(ToLower(d.cmd), ToLower(filter)) then [d] else []
  }

  /** Filtering distributes over concatenation, so it keeps relative order. */
  lemma {:induction false} FilterAppend(a: seq<CommandDef>, b: seq<CommandDef>, filter: string)
    ensures FilterCommands(a + b, filter) == FilterCommands(a, filter) + FilterCommands(b, filter)
  {
    if |a| > 0 {
      FilterAppend(a[1..], b, filter);
      assert (a + b)[1..] == a[1..] + b;
      var first := Kept(a[0], filter);
      assert (a + b)[0] == a[0];
      assert FilterCommands(a, filter) == first + FilterCommands(a[1..], filter);
      assert FilterCommands(a + b, filter) == first + FilterCommands(a[1..] + b, filter);
      assert first + (FilterCommands(a[1..], filter) + FilterCommands(b, filter))
          == (first + FilterCommands(a[1..], filter)) + FilterCommands(b, filter);
    } else {
      assert a + b == b;
    }
  }

  /** The dropdown: hidden, or listing items with one selected. */
  datatype Dropdown = Hidden | Shown(items: seq<CommandDef>, selected: int)

  /** `showAutocomplete`: hidden for an empty filter or when nothing matches,
      otherwise the matches with the first one selected. */
  function ShowAutocomplete(filter: string): (r: Dropdown)
    ensures r.Hidden? <==> filter == "" || FilterCommands(CommandDefs, filter) == []
    ensures r.Shown? ==> r.items == FilterCommands(CommandDefs, filter) && r.selected == 0 && |r.items| > 0
  {
    var filtered := FilterCommands(CommandDefs, filter);
    if |filtered| == 0 || filter == "" then Hidden else Shown(filtered, 0)
  }

  /** The input handler: a value starting with '/' and holding no space opens the dropdown. */
  function OnInput(value: string): (r: Dropdown)
    ensures !StartsWith(value, "/") || ' ' in value ==> r.Hidden?
    ensures StartsWith(value, "/") && ' ' !in value ==> r == ShowAutocomplete(value)
    ensures r.Shown? ==> forall i :: 0 <= i < |r.items| ==> StartsWith(ToLower(r.items[i].cmd), ToLower(value))
  {
    FilterContents(CommandDefs, value);
    if StartsWith(value, "/") && ' ' !in value then ShowAutocomplete(value) else Hidden
  }

  /** When every definition matches, the filter keeps them all. */
  lemma {:induction false} FilterAllMatch(defs: seq<CommandDef>, filter: string)
    requires forall i :: 0 <= i < |defs| ==> StartsWith(ToLower(defs[i].cmd), ToLower(filter))
    ensures FilterCommands(defs, filter) == defs
  {
    if |defs| > 0 {
      FilterAllMatch(defs[1..], filter);
      assert [defs[0]] + defs[1..] == defs;
    }
  }

  /** When no definition matches, the filter keeps none. */
  lemma {:induction false} FilterNoneMatch(defs: seq<CommandDef>, filter: string)
    requires forall i :: 0 <= i < |defs| ==> !StartsWith(ToLower(defs[i].cmd), ToLower(filter))
    ensures FilterCommands(defs, filter) == []
  {
    if |defs| > 0 {
      FilterNoneMatch(defs[1..], filter);
    }
  }

  /** Every command starts with '/': the filter "/" lists all six, in order. */
  lemma SlashListsAll()
    ensures ShowAutocomplete("/") == Shown(CommandDefs, 0)
  {
    assert ToLower("/") == "/";
    forall i | 0 <= i < |CommandDefs|
      ensures StartsWith(ToLower(CommandDefs[i].cmd), "/")
    {
      assert CommandDefs[i].cmd[0] == '/';
      assert ToLower(CommandDefs[i].cmd)[0] == '/';
    }
    FilterAllMatch(CommandDefs, "/");
  }

  /** No command starts with "/x": the dropdown stays hidden. */
  lemma UnknownPrefixHidden()
    ensures ShowAutocomplete("/x").Hidden?
  {
    var f := ToLower("/x");
    assert f == "/x";
    forall i | 0 <= i < |CommandDefs|
      ensures !StartsWith(ToLower(CommandDefs[i].cmd), f)
    {
      assert CommandDefs[i].cmd[1] != 'x' && CommandDefs[i].cmd[1] != 'X';
      assert ToLower(CommandDefs[i].cmd)[1] != 'x';
    }
    FilterNoneMatch(CommandDefs, "/x");
  }

  /** The JavaScript `%`: the remainder takes the sign of the dividend. */
  function JsRem(a: int, b: int): (r: int)
    requires b != 0
    ensures a >= 0 ==> 0 <= r < (if b > 0 then b else -b)
    ensures a < 0 ==> -(if b > 0 then b else -b) < r <= 0
    ensures (a - r) % b == 0
  {
    if a >= 0 then
      RemainderLeavesMultiple(a, b);
      a % b
    else
      RemainderLeavesMultiple(-a, b);
      assert a - -((-a) % b) == -((-a) - (-a) % b);
      -((-a) % b)
  }

  /** Taking away the remainder leaves a multiple, whichever the sign. */
  lemma RemainderLeavesMultiple(a: int, b: int)
    requires b != 0
    ensures (a - a % b) % b == 0 && (-(a - a % b)) % b == 0
  {
    var q := a / b;
    assert a - a % b == b * q;
    assert -(b * q) == b * -q;
    MultipleMod(q, b);
    MultipleMod(-q, b);
  }

  /** A multiple of `b` leaves no remainder. */
  lemma MultipleMod(q: int, b: int)
    requires b != 0
    ensures (b * q) % b == 0
  {
    var d, m := (b * q) / b, (b * q) % b;
    assert b * q == b * d + m;
    assert m == b * (q - d);
    if q != d {
      MulGrows(b, q - d);
    }
  }

  /** A nonzero multiple of `b` is at least as large as `b` in magnitude. */
  lemma MulGrows(b: int, k: int)
    requires b != 0 && k != 0
    ensures b * k >= (if b > 0 then b else -b) || b * k <= -(if b > 0 then b else -b)
  {
    if k > 0 {
      assert b * k == b + b * (k - 1);
      if b > 0 { assert b * (k - 1) >= 0; } else { assert b * (k - 1) <= 0; }
    } else {
      assert b * k == -b + b * (k + 1);
      if b > 0 { assert b * (k + 1) <= 0; } else { assert b * (k + 1) >= 0; }
    }
  }

  lemma ModBelow(a: int, b: int)
    requires 0 <= a < b
    ensures a % b == a
  {
    assert a == b * 0 + a;
  }

  lemma RemBelow(a: int, b: int)
    requires 0 <= a < b
    ensures JsRem(a, b) == a
  {
    ModBelow(a, b);
  }

  lemma RemWrap(b: int)
    requires b > 0
    ensures JsRem(b, b) == 0
  {
  }

  lemma RemShift(a: int, b: int)
    requires 0 <= a < b
    ensures JsRem(a + b, b) == a
  {
    assert (a + b) % b == a % b;
    ModBelow(a, b);
  }

  lemma NavigateSteps(index: int, count: int)
    requires count > 0
    ensures 0 <= index < count ==> JsRem(index + 1, count) == if index == count - 1 then 0 else index + 1
    ensures 0 <= index < count ==> JsRem(index - 1 + count, count) == if index == 0 then count - 1 else index - 1
  {
    if 0 <= index < count {
      if index == count - 1 {
        RemWrap(count);
      } else {
        RemBelow(index + 1, count);
      }
      if index == 0 {
        RemBelow(count - 1, count);
      } else {
        RemShift(index - 1, count);
      }
    }
  }

  /** `navigateAutocomplete`: "down" moves to the next item cyclically, any
      other direction to the previous one; with no items nothing moves. */
  function NavigateIndex(index: int, count: nat, direction: string): (r: int)
    ensures count == 0 ==> r == index
    ensures count > 0 && 0 <= index < count ==> 0 <= r < count
    ensures count > 0 && 0 <= index < count && direction == "down" ==>
      r == if index == count - 1 then 0 else index + 1
    ensures count > 0 && 0 <= index < count && direction != "down" ==>
      r == if index == 0 then count - 1 else index - 1
  {
    if count == 0 then index
    else
      NavigateSteps(index, count);
      if direction == "down" then JsRem(index + 1, count) else JsRem(index - 1 + count, count)
  }

  /** Down then up, or up then down, returns to the starting item. */
  lemma NavigateRoundTrip(index: int, count: nat)
    requires 0 <= index < count
    ensures NavigateIndex(NavigateIndex(index, count, "down"), count, "up") == index
    ensures NavigateIndex(NavigateIndex(index, count, "up"), count, "down") == index
  {
  }

  /** Keyboard navigation on the dropdown. */
  function Navigate(d: Dropdown, direction: string): (r: Dropdown)
    ensures r.Hidden? <==> d.Hidden?
    ensures r.Shown? ==> r.items == d.items
    ensures d.Shown? && 0 <= d.selected < |d.items| ==> 0 <= r.selected < |r.items|
    ensures r.Shown? ==> r.selected == NavigateIndex(d.selected, |d.items|, direction)
  {
    match d
    case Hidden => Hidden
    case Shown(items, selected) => Shown(items, NavigateIndex(selected, |items|, direction))
  }
}

=== FILE: stream_decoder.dfy ===
/** The body of the relay's read loop: every read is split on '\n' on its own
    (nothing is carried from one read to the next), `data: ` lines are parsed
    as JSON, and the content of each event is taken from the chat-completions
    shape or, failing that, from the responses shape. */
module StreamDecoder {
  import opened JsText
  import opened JsonValue

  const DataPrefix := "data: "
  const DoneMarker := "[DONE]"
  const OutputTextDelta := "response.output_text.delta"

  /** `JSON.parse`, supplied by the caller: None stands for a thrown SyntaxError. */
  type Parser = string -> Option<Json>

  /** `jsonChunk.choices?.[0]?.delta?.content`. */
  function ChatDelta(v: Json): Option<Json> {
    match Field(v, "choices")
    case None => None
    case Some(choices) =>
      match Index0(choices)
      case None => None
      case Some(first) =>
        match Field(first, "delta")
        case None => None
        case Some(delta) => Field(delta, "content")
  }

  /** A responses-API text delta event: `type === 'response.output_text.delta'`. */
  predicate IsTextDeltaEvent(v: Json) {
    Field(v, "type") == Some(JStr(OutputTextDelta))
  }

  predicate HasTruthy(o: Option<Json>) {
    o.Some? && Truthy(o.value)
  }

  /** The content one parsed event contributes: a truthy chat delta wins,
      then a truthy `delta` of a text-delta event, otherwise nothing. Empty
      or otherwise falsy content is never produced. */
  function EventContent(v: Json): (r: Option<Json>)
    ensures r.Some? ==> Truthy(r.value)
    ensures HasTruthy(ChatDelta(v)) ==> r == ChatDelta(v)
    ensures !HasTruthy(ChatDelta(v)) && IsTextDeltaEvent(v) && HasTruthy(Field(v, "delta")) ==> r == Field(v, "delta")
    ensures r.None? <==> !HasTruthy(ChatDelta(v)) && !(IsTextDeltaEvent(v) && HasTruthy(Field(v, "delta")))
  {
    if v.JNull? then None  // `null.choices` throws; the catch skips the line
    else if HasTruthy(ChatDelta(v)) then ChatDelta(v)
    else if IsTextDeltaEvent(v) && HasTruthy(Field(v, "delta")) then Field(v, "delta")
    else None
  }

  /** The payload after `data: `. */
  function Payload(line: string): string
    requires StartsWith(line, DataPrefix)
  {
    line[|DataPrefix|..]
  }

  /** What one line emits: only a `data: ` line whose payload is not `[DONE]`
      and parses can emit, and then exactly the content of the parsed event,
      provided `fullResponse += content` does not throw on it. */
  function LineContent(line: string, parse: Parser): (r: Option<Json>)
    ensures r.Some? <==>
      && StartsWith(line, DataPrefix)
      && Payload(line) != DoneMarker
      && parse(Payload(line)).Some?
      && EventContent(parse(Payload(line)).value).Some?
      && Coercible(EventContent(parse(Payload(line)).value).value)
    ensures r.Some? ==> r == EventContent(parse(Payload(line)).value) && Truthy(r.value) && Coercible(r.value)
  {
    if !StartsWith(line, DataPrefix) then None
    else
      var data := Payload(line);
      if data == DoneMarker then None
      else
        match parse(data)
        case None => None
        case Some(v) =>
          var content := EventContent(v);
          // A content the coercion throws on is caught with the parse errors:
          // neither the response text nor the chunk messages see it.
          if content.Some? && !Coercible(content.value) then None else content
  }

  function Emitted(o: Option<Json>): seq<Json> {
    if o.Some? then [o.value] else []
  }

  /** The contents emitted for a list of lines, in line order. */
  function DecodeLines(lines: seq<string>, parse: Parser): (r: seq<Json>)
    ensures |r| <= |lines|
    ensures AllCoercible(r)
  {
    if |lines| == 0 then []
    else DecodeLines(lines[..|lines| - 1], parse) + Emitted(LineContent(lines[|lines| - 1], parse))
  }

  /** The contents emitted for one read. */
  function DecodeRead(text: string, parse: Parser): seq<Json> {
    DecodeLines(SplitLines(text), parse)
  }

  /** The contents present in a list of per-line outcomes, in order. */
  function Present(os: seq<Option<Json>>): seq<Json> {
    if |os| == 0 then [] else Present(os[..|os| - 1]) + Emitted(os[|os| - 1])
  }

  lemma {:induction false} PresentAppend(a: seq<Option<Json>>, b: seq<Option<Json>>)
    ensures Present(a + b) == Present(a) + Present(b)
    decreases |b|
  {
    if |b| == 0 {
      assert a + b == a;
    } else {
      var b' := b[..|b| - 1];
      PresentAppend(a, b');
      assert (a + b)[..|a + b| - 1] == a + b';
    }
  }

  /** What each line emits, line by line. */
  function Outcomes(lines: seq<string>, parse: Parser): (r: seq<Option<Json>>)
    ensures |r| == |lines|
    ensures forall i :: 0 <= i < |lines| ==> r[i] == LineContent(lines[i], parse)
  {
    seq(|lines|, i requires 0 <= i < |lines| => LineContent(lines[i], parse))
  }

  lemma OutcomesAppend(a: seq<string>, b: seq<string>, parse: Parser)
    ensures Outcomes(a + b, parse) == Outcomes(a, parse) + Outcomes(b, parse)
  {
    var l, r := Outcomes(a + b, parse), Outcomes(a, parse) + Outcomes(b, parse);
    forall i | 0 <= i < |l|
      ensures l[i] == r[i]
    {
      if i < |a| {
        assert (a + b)[i] == a[i];
      } else {
        assert (a + b)[i] == b[i - |a|];
      }
    }
  }

  /** Decoding keeps exactly the outcomes that carry a content. */
  lemma {:induction false} DecodeLinesPresent(lines: seq<string>, parse: Parser)
    ensures DecodeLines(lines, parse) == Present(Outcomes(lines, parse))
    decreases |lines|
  {
    if |lines| > 0 {
      var n := |lines|;
      DecodeLinesPresent(lines[..n - 1], parse);
      assert Outcomes(lines, parse)[..n - 1] == Outcomes(lines[..n - 1], parse);
    }
  }

  /** Lines are decoded independently and in order. */
  lemma DecodeLinesAppend(a: seq<string>, b: seq<string>, parse: Parser)
    ensures DecodeLines(a + b, parse) == DecodeLines(a, parse) + DecodeLines(b, parse)
  {
    DecodeLinesPresent(a + b, parse);
    DecodeLinesPresent(a, parse);
    DecodeLinesPresent(b, parse);
    OutcomesAppend(a, b, parse);
    PresentAppend(Outcomes(a, parse), Outcomes(b, parse));
  }

  /** The lines the relay sees over a whole stream: each read is split on its
      own, so a line never spans two reads. */
  function LinesOf(received: seq<string>): seq<string> {
    if |received| == 0 then []
    else LinesOf(received[..|received| - 1]) + SplitLines(received[|received| - 1])
  }

  /** The contents emitted for a whole stream, in line order. */
  function DecodeReads(received: seq<string>, parse: Parser): seq<Json> {
    DecodeLines(LinesOf(received), parse)
  }

  lemma LinesOfSnoc(a: seq<string>, text: string)
    ensures LinesOf(a + [text]) == LinesOf(a) + SplitLines(text)
  {
    assert (a + [text])[..|a|] == a;
  }

  lemma {:induction false} LinesOfAppend(a: seq<string>, b: seq<string>)
    ensures LinesOf(a + b) == LinesOf(a) + LinesOf(b)
    decreases |b|
  {
    if |b| == 0 {
      assert a + b == a;
    } else {
      var b' := b[..|b| - 1];
      var last := b[|b| - 1];
      assert b == b' + [last];
      assert a + b == (a + b') + [last];
      LinesOfAppend(a, b');
      LinesOfSnoc(a + b', last);
      LinesOfSnoc(b', last);
    }
  }

  /** Reads are decoded independently and in order. */
  lemma DecodeReadsAppend(a: seq<string>, b: seq<string>, parse: Parser)
    ensures DecodeReads(a + b, parse) == DecodeReads(a, parse) + DecodeReads(b, parse)
  {
    LinesOfAppend(a, b);
    DecodeLinesAppend(LinesOf(a), LinesOf(b), parse);
  }

  lemma ReadsSnoc(a: seq<string>, text: string, parse: Parser)
    ensures DecodeReads(a + [text], parse) == DecodeReads(a, parse) + DecodeRead(text, parse)
  {
    LinesOfSnoc(a, text);
    DecodeLinesAppend(LinesOf(a), SplitLines(text), parse);
  }

  /** A line that emits nothing (a `[DONE]` line, an unparseable payload, a
      non-data line) does not disturb the lines around it. */
  lemma SilentLineSkipped(before: seq<string>, line: string, after: seq<string>, parse: Parser)
    requires LineContent(line, parse).None?
    ensures DecodeLines(before + [line] + after, parse) == DecodeLines(before, parse) + DecodeLines(after, parse)
  {
    DecodeLinesAppend(before + [line], after, parse);
    DecodeLinesAppend(before, [line], parse);
    OneLine(line, parse);
  }

  lemma OneLine(line: string, parse: Parser)
    ensures DecodeLines([line], parse) == Emitted(LineContent(line, parse))
  {
    assert [line][..0] == [];
  }

  /** The end-of-stream marker never emits. */
  lemma DoneIsSilent(parse: Parser)
    ensures LineContent(DataPrefix + DoneMarker, parse).None?
  {
    assert Payload(DataPrefix + DoneMarker) == DoneMarker;
  }

  /** A payload that does not parse emits nothing, and later lines still decode. */
  lemma MalformedIsSkipped(before: seq<string>, payload: string, after: seq<string>, parse: Parser)
    requires parse(payload).None?
    ensures DecodeLines(before + [DataPrefix + payload] + after, parse)
         == DecodeLines(before, parse) + DecodeLines(after, parse)
  {
    assert Payload(DataPrefix + payload) == payload;
    SilentLineSkipped(before, DataPrefix + payload, after, parse);
  }

  /** A content that `fullResponse += content` throws on (an object with its
      own `toString`, or an array holding one) is skipped like a parse error:
      no chunk is sent and the response text does not grow. */
  lemma UncoercibleIsSkipped(before: seq<string>, payload: string, after: seq<string>, parse: Parser)
    requires payload != DoneMarker && parse(payload).Some?
    requires EventContent(parse(payload).value).Some? && !Coercible(EventContent(parse(payload).value).value)
    ensures DecodeLines(before + [DataPrefix + payload] + after, parse)
         == DecodeLines(before, parse) + DecodeLines(after, parse)
  {
    assert Payload(DataPrefix + payload) == payload;
    SilentLineSkipped(before, DataPrefix + payload, after, parse);
  }

  /** The event `{"choices":[{"delta":{"content":{"toString":1}}}]}` has
      truthy content, yet its line emits nothing; with a string content the
      same line emits that string. */
  lemma ToStringContentIsSkipped(payload: string, parse: Parser)
    requires payload != DoneMarker
    requires parse(payload) == Some(ChatEvent(JObj(map["toString" := JNum(1)])))
    ensures EventContent(parse(payload).value) == Some(JObj(map["toString" := JNum(1)]))
    ensures LineContent(DataPrefix + payload, parse).None?
  {
    assert Payload(DataPrefix + payload) == payload;
    ChatEventContent(JObj(map["toString" := JNum(1)]));
  }

  /** A chat-completions event carrying one delta content. */
  function ChatEvent(content: Json): Json {
    JObj(map["choices" := JArr([JObj(map["delta" := JObj(map["content" := content])])])])
  }

  /** The content of a chat-completions event is its delta content when truthy. */
  lemma ChatEventContent(content: Json)
    ensures EventContent(ChatEvent(content)) == if Truthy(content) then Some(content) else None
  {
    assert ChatDelta(ChatEvent(content)) == Some(content);
  }

  lemma SingleLine(line: string, parse: Parser)
    requires '\n' !in line
    ensures DecodeRead(line, parse) == Emitted(LineContent(line, parse))
  {
    SplitSingle(line);
    assert [line][..0] == [];
  }

  lemma NoNewlineInData(a: string)
    requires '\n' !in a
    ensures '\n' !in DataPrefix + a
  {
    assert forall k :: 0 <= k < |DataPrefix| ==> DataPrefix[k] != '\n';
  }

  lemma ReadAfterLine(line: string, rest: string, parse: Parser)
    requires '\n' !in line
    ensures DecodeRead(line + "\n" + rest, parse) == Emitted(LineContent(line, parse)) + DecodeRead(rest, parse)
  {
    SplitAfterLine(line, rest);
    DecodeLinesAppend([line], SplitLines(rest), parse);
    OneLine(line, parse);
  }

  lemma OneRead(text: string, parse: Parser)
    ensures DecodeReads([text], parse) == DecodeRead(text, parse)
  {
    ReadsSnoc([], text, parse);
    assert [] + [text] == [text];
  }

  lemma TwoReads(first: string, second: string, parse: Parser)
    ensures DecodeReads([first, second], parse) == DecodeRead(first, parse) + DecodeRead(second, parse)
  {
    ReadsSnoc([first], second, parse);
    assert [first] + [second] == [first, second];
    OneRead(first, parse);
  }

  /** There is no carry-over buffer: a `data:` line cut in two by the read
      boundary is lost. The head does not parse on its own, the tail is not a
      `data:` line, so neither read emits, although the same text in a single
      read would emit the event's content. */
  lemma SplitFrameIsLost(head: string, tail: string, rest: string, parse: Parser)
    requires '\n' !in head && '\n' !in tail
    requires !StartsWith(tail, DataPrefix)
    requires parse(head).None?
    requires DecodeRead(rest, parse) == []
    ensures DecodeReads([DataPrefix + head, tail + "\n" + rest], parse) == []
    ensures && head + tail != DoneMarker && parse(head + tail).Some?
            && EventContent(parse(head + tail).value).Some?
            && Coercible(EventContent(parse(head + tail).value).value)
            ==>
      DecodeReads([DataPrefix + (head + tail) + "\n" + rest], parse) == [EventContent(parse(head + tail).value).value]
  {
    NoNewlineInData(head);
    assert Payload(DataPrefix + head) == head;
    SingleLine(DataPrefix + head, parse);
    ReadAfterLine(tail, rest, parse);
    TwoReads(DataPrefix + head, tail + "\n" + rest, parse);

    var whole := DataPrefix + (head + tail);
    assert '\n' !in head + tail;
    NoNewlineInData(head + tail);
    assert Payload(whole) == head + tail;
    ReadAfterLine(whole, rest, parse);
    OneRead(whole + "\n" + rest, parse);
  }

  /** A final line with no line feed is still decoded: each read is split and
      every piece, the last one included, goes through the line decoder. */
  lemma UnterminatedLineDecoded(payload: string, parse: Parser)
    requires '\n' !in payload
    ensures DecodeRead(DataPrefix + payload, parse) == Emitted(LineContent(DataPrefix + payload, parse))
  {
    NoNewlineInData(payload);
    SingleLine(DataPrefix + payload, parse);
  }

  lemma LinesPrefixStep(lines: seq<string>, j: nat, parse: Parser)
    requires j < |lines|
    ensures DecodeLines(lines[..j + 1], parse) == DecodeLines(lines[..j], parse) + Emitted(LineContent(lines[j], parse))
  {
    assert lines[..j + 1][..j] == lines[..j];
  }

  lemma ReadsPrefixStep(received: seq<string>, i: nat, parse: Parser)
    requires i < |received|
    ensures DecodeReads(received[..i + 1], parse) == DecodeReads(received[..i], parse) + DecodeRead(received[i], parse)
  {
    assert received[..i + 1] == received[..i] + [received[i]];
    ReadsSnoc(received[..i], received[i], parse);
  }

  /** The emitted contents after one more line. */
  function Extend(out: seq<Json>, content: Option<Json>): (r: seq<Json>)
    ensures r == out + Emitted(content)
  {
    if content.Some? then out + [content.value] else out
  }

  /** The response text after one more line. */
  function Append(text: string, content: Option<Json>): (r: string)
    requires content.Some? ==> Coercible(content.value)
    ensures content.None? ==> r == text
    ensures content.Some? ==> |r| == |text| + |ToJsString(content.value)| && StartsWith(r, text)
  {
    if content.Some? then text + ToJsString(content.value) else text
  }

  /** One turn of the line loop keeps the emitted contents and the response
      text in step with the decoder. */
  lemma RelayLineStep(lines: seq<string>, j: nat, parse: Parser, out: seq<Json>, text: string)
    requires j < |lines| && out == DecodeLines(lines[..j], parse) && text == Concat(out)
    ensures Extend(out, LineContent(lines[j], parse)) == DecodeLines(lines[..j + 1], parse)
    ensures Append(text, LineContent(lines[j], parse)) == Concat(Extend(out, LineContent(lines[j], parse)))
  {
    var c := LineContent(lines[j], parse);
    LinesPrefixStep(lines, j, parse);
    if c.Some? {
      ConcatSnoc(out, c.value);
    } else {
      assert out + Emitted(c) == out;
    }
  }

  /** The inner loop of the relay over the lines of one read: emitted
      contents in order, and their string forms concatenated. */
  method RelayLines(lines: seq<string>, parse: Parser) returns (out: seq<Json>, text: string)
    ensures out == DecodeLines(lines, parse)
    ensures text == Concat(out)
  {
    out := [];
    text := "";
    var j := 0;
    while j < |lines|
      invariant 0 <= j <= |lines|
      invariant out == DecodeLines(lines[..j], parse)
      invariant text == Concat(out)
    {
      var content := LineContent(lines[j], parse);
      RelayLineStep(lines, j, parse, out, text);
      out, text := Extend(out, content), Append(text, content);
      j := j + 1;
    }
    assert lines[..j] == lines;
  }

  /** The read loop of the relay: each read is split on line feeds and its
      lines are decoded in order; the response text accumulates the string
      form of every emitted content. */
  method RelayReads(received: seq<string>, parse: Parser) returns (chunks: seq<Json>, fullResponse: string)
    ensures chunks == DecodeReads(received, parse)
    ensures fullResponse == Concat(chunks)
  {
    chunks := [];
    fullResponse := "";
    var i := 0;
    while i < |received|
      invariant 0 <= i <= |received|
      invariant chunks == DecodeReads(received[..i], parse)
      invariant fullResponse == Concat(chunks)
    {
      var out, text := RelayLines(SplitLines(received[i]), parse);
      ReadsPrefixStep(received, i, parse);
      ConcatAppend(chunks, out);
      chunks := chunks + out;
      fullResponse := fullResponse + text;
      i := i + 1;
    }
    assert received[..i] == received;
  }
}
